=== FILE: README.md ===
# mat-twitter-downloader — a Dafny model of the crawl core

This project models the core of a Twitter crawler written in TypeScript, and proves properties of that model. The crawler downloads the tweets, followers and followings of a fixed list of profiles. It does this page by page, and it rotates over a pool of API applications that are rate-limited per data kind. Progress lives in one resume record per profile, so an interrupted crawl can pick up where it stopped. After the crawl, the downloaded follower/following tables feed a normalized social distance (NSD) matrix.

Every operation is a pure function of its inputs. The clock is an integer number of milliseconds (`now`). The remote API is an input: the page a fetch returns, or the error it throws. Files read become sequences of rows, and files written become the strings that would be written. The collation `localeCompare` is a parameter `less`, and so is the printing of a distance (`show`).

| file | module | models |
|---|---|---|
| types.dfy | `Types` | `Option`, `Result`, the data kinds (`EData`, here `Kind`), JavaScript truthiness of strings |
| app.dfy | `Credentials` | `App`: per-kind rate-limit lock, `isLocked`, `getAvailableIn`, `getToken` |
| token_pool.dfy | `TokenPool` | `TokenPool`: constructor check, `getApp`, `getSoonestAvailableApp` |
| downloader.dfy | `Downloader` | `Downloader.getApp` (wait and retry), `_validateTokens`, `_validateProfiles` |
| resume_store.dfy | `ResumeStore` | `IUserData`, `updateUserData`, `handlePaginationToken`, `getUserData` |
| workers.dfy | `Workers` | `BaseWorker.perform`, `TweetsWorker._perform`, `FollowersWorker._perform` |
| csv.dfy | `Csv` | `CSV.toCSVRow`, and a reader it is proved against |
| data.dfy | `Data` | `_getUsers`, `_getUsersOf`, `_mapUsers` over the rows of a downloaded table |
| social_distance.dfy | `SocialDistance` | `_getUsernameKey`, `_calculateDistances`, `_save`, `createMap` |

Behaviour of the code that the model keeps as written:

- Only the first application's token list is checked when the pool is built. A later application may have no token at all (`TokenPool.OnlyFirstTokensChecked`).
- `getApp` returns the *first* free application in pool order, not just any free one.
- A worker enqueues itself again when the paginator reports `done` as false. It does not look at whether a next cursor came back. The two usually agree, and the model keeps them separate.
- `getUserData` caches a record only when it comes from the remote lookup. A record read from its JSON file is returned without being cached.
- A record created from the remote lookup never carries a `protected` flag. Only a stored record can carry one, and only then does the skip rule see it.
- The 429 error carries its reset in epoch seconds, and the lock stores that value times 1000.

## Model

| member | source | states |
|---|---|---|
| Credentials.NewApp | src/app.ts:7-16 | a new app keeps the given id and tokens and has no reset instant for any kind |
| Credentials.Lock | src/app.ts:18-20 | the reset for the locked kind becomes `until`, overwriting an earlier one; the other kinds, the id and the tokens are unchanged |
| Credentials.LockedUntil | src/app.ts:18-27 | after `lock(k, until)` the app is locked for k exactly while now < until, and free again at `until` |
| Credentials.LockOnlyLapses | src/app.ts:22-27 | `IsLocked`: an app with no reset time is never locked, and one locked at some instant was locked at every earlier instant, so a lock only lapses with time |
| Credentials.ResetTimeAfterLocks | src/app.ts:41-43 | `ResetTime`: after any sequence of locks the reset time of a kind is the instant of that kind's last lock, and the app's original value (none, for a new app) when the kind was never locked |
| Credentials.LockOtherKind | src/app.ts:18-27 | locking one kind never changes whether the app is locked for another kind |
| Credentials.AvailableIn | src/app.ts:37-43 | fails (a call on `null`) exactly when the kind has no reset; otherwise now plus the result is the reset instant, and the result is positive exactly when the app is locked |
| Credentials.GetToken | src/app.ts:33-35 | every draw within [0, tokens.length - 1] yields a token, and it is one of the app's tokens |
| Credentials.EveryTokenDrawable | src/app.ts:33-35 | every token of the app is the outcome of some draw within the bounds |
| TokenPool.NewPool | src/token-pool.ts:13-18 | refuses exactly an empty list or a first application without tokens; otherwise one unlocked app per entry, in input order, with its id and tokens |
| TokenPool.OnlyFirstTokensChecked | src/token-pool.ts:14-16 | a list whose second application has no token is accepted |
| TokenPool.FindFree | src/token-pool.ts:20-24 | the scan of `find` from position i: the position returned is free and every app before it is locked; none means every app from i on is locked |
| TokenPool.GetApp | src/token-pool.ts:20-24 | the first app in pool order that is not locked for the kind; nothing exactly when every app is locked; the app returned has no reset later than now |
| TokenPool.LockAt | src/workers/base.ts:19 | locking the app at one position sets its reset for the kind and leaves every other app, and its other kinds, as they were |
| TokenPool.LockDoesNotAffectOtherKind | src/token-pool.ts:20-24 | a lock for one kind never changes which app `getApp` returns for another kind |
| TokenPool.InsertPermutes | src/token-pool.ts:27-29 | `Insert`, one step of the sort, adds exactly the new app to the pool and grows it by one |
| TokenPool.InsertSorted | src/token-pool.ts:27-29 | `Insert` into a pool sorted by reset keeps it sorted when every app has a reset |
| TokenPool.SortPermutes | src/token-pool.ts:27-29 | `SortByReset`, the model of the comparator sort, returns a permutation of the pool |
| TokenPool.SortSorted | src/token-pool.ts:27-29 | `SortByReset`: when every app has a reset for the kind, the sorted pool is in ascending order of reset |
| TokenPool.SoonestAvailable | src/token-pool.ts:26-31 | the pool comes back permuted; when every app has a reset it is sorted and its head resets no later than any app |
| Downloader.AllLockedHaveReset | src/app.ts:22-27 | a pool where every app is locked has a reset instant on every app |
| Downloader.AwaitApp | src/downloader.ts:220-230 | the app returned is free at the returned instant, which is never earlier than the call; without a wait nothing changes; with one, the clock stops at the earliest reset of the pool, the pool is left as `getSoonestAvailableApp` reorders it, in ascending reset order for every later `getApp`, and the app is its head |
| Downloader.ReorderedPoolScenario | src/token-pool.ts:26-31 | apps A, B and C locked until t+5000, t+2000 and t+3000 are left in the order B, C, A, and the caller resumes at t+2000 holding B |
| Downloader.FirstFreeAfterWait | src/downloader.ts:222-227 | after the wait the head of the reordered pool is free, so the retry returns it without waiting again, and fewer apps are locked |
| Downloader.SoonestWaitScenario | src/downloader.ts:220-230 | with apps A locked until t+5000 and B until t+2000, the caller resumes at t+2000 holding B |
| Downloader.FindId | src/downloader.ts:320 | the position of the first application with the id, none exactly when no application has it |
| Downloader.AddRowExisting | src/downloader.ts:320-322 | `AddRow`: adding a row whose id is known keeps the grouping invariant |
| Downloader.AddRowNew | src/downloader.ts:323-328 | `AddRow`: adding a row with a new id keeps the grouping invariant |
| Downloader.GroupTokensSpec | src/downloader.ts:319-330 | `GroupTokens` yields one application per distinct id in order of first appearance, each with exactly the tokens of its rows in row order, and as many tokens in all as rows |
| Downloader.ValidateTokens | src/downloader.ts:315-334 | fails exactly on an empty table, and then because the pool refuses it, so the "No tokens" check never fires; otherwise the pool holds the grouped applications, unlocked |
| Downloader.TruthyCount | src/downloader.ts:341 | the count is zero exactly when no username is truthy |
| Downloader.ValidateProfiles | src/downloader.ts:336-343 | fails exactly when every username is empty; otherwise the list is kept as read, empty names included |
| ResumeStore.Merge | src/downloader.ts:143-152 | a field present in the patch replaces the old one wholesale, an absent field keeps the old value, and the pagination map alone is merged key by key, the patch winning |
| ResumeStore.UpdateUserData | src/downloader.ts:143-154 | only the entry of the username changes, and it becomes the merge of the cached record with the patch |
| ResumeStore.MergeIdempotent | src/downloader.ts:145-152 | merging the same patch twice gives the same record as merging it once |
| ResumeStore.UpdateIdempotent | src/downloader.ts:143-154 | replaying `updateUserData` with the same patch leaves the same cache as one call |
| ResumeStore.MergeCommutesOnDisjointCursors | src/downloader.ts:148-151 | patches touching the cursors of different kinds give the same cursors in either order; the program's own whole-record patches overlap, so this is a property of the merge, not of its callers |
| ResumeStore.NextRecord | src/downloader.ts:128-139 | the cursor becomes the next token when that is truthy and an explicit `null` otherwise; the count grows by the result count from its old value (0 if absent); other kinds and fields are unchanged |
| ResumeStore.HandlePaginationToken | src/downloader.ts:122-141 | the returned record is the updated record; the user's cache entry becomes the merge of the cached record with all of it, carrying the new cursor and count; every other cache entry is unchanged |
| ResumeStore.PageLeavesOtherKinds | src/downloader.ts:122-154 | when the cache holds the record being advanced, the entry afterwards is exactly the advanced record: the cursor and count of every other kind, the id, the profile counts and the `protected` flag stay as they were |
| ResumeStore.FreshRecord | src/downloader.ts:176-187 | the new record has the profile's id, no cursor, no counts done, the four profile counts (0 when metrics are missing) and no `protected` flag |
| ResumeStore.GetUserData | src/downloader.ts:164-191 | a cached record is returned first; then a stored file, not cached; then, with a remote profile, the fresh record built from it, which is cached under the username; fails exactly when all three are missing |
| Workers.Perform | src/workers/base.ts:13-23 | waits for a free app; on success nothing is locked; a 429 with a reset locks exactly that app for the worker's kind until reset × 1000, keeps its id and tokens, and rethrows; a 429 without a reset throws a `TypeError`; any other error is rethrown with the locks unchanged |
| Workers.RateLimitLocksOnlyItsKind | src/workers/base.ts:18-20 | after a 429 the app is locked for the worker's kind until the reset, and `getApp` for any other kind is unaffected |
| Workers.SkipsExactlyWithoutRequest | src/workers/tweets.ts:21-27 | `Skips`: a step sends a request exactly when the record is neither exhausted for the kind nor protected |
| Workers.FreshRecordNeverSkips | src/workers/tweets.ts:21-27 | `Skips` never holds for a record fresh from the remote lookup, so a new profile is always fetched |
| Workers.Rows | src/workers/tweets.ts:48-52 | one row per fetched item, in order |
| Workers.TweetRowReadsBack | src/workers/tweets.ts:50 | `TweetRow`: the written line of a tweet reads back as user id, username, tweet id, text and creation time, when no field holds a double quote or backslash |
| Workers.FollowerRowReadsBack | src/workers/followers.ts:47 | `FollowerRow`: the written line of a follower reads back as user id, username, follower id and follower username, under the same condition |
| Workers.PageStep | src/workers/followers.ts:18-43 | skips on an exhausted or protected record; otherwise requests one page from the stored cursor, writes the rows, records cursor and count, and requeues exactly when the paginator is not done; a failed fetch changes nothing |
| Workers.TweetsPerform | src/workers/tweets.ts:18-46 | requests up to 100 tweets, writes five-field rows, the record afterwards is the record advanced for tweets alone, the cache holds its merge and every other user's entry is unchanged; a failed fetch writes nothing, keeps record and cache, and reports its error |
| Workers.FollowersPerform | src/workers/followers.ts:18-43 | requests up to 200 followers, writes four-field rows, the record afterwards is the record advanced for followers alone, the cache holds its merge and every other user's entry is unchanged; a failed fetch writes nothing, keeps record and cache, and reports its error |
| Workers.PageKeepsOtherKinds | src/workers/tweets.ts:37-42 | a fetched page of one kind leaves the cached cursor and count of every other kind as they were, when the cache held the record the job read |
| Workers.ExhaustedStaysDone | src/workers/tweets.ts:21-23 | once a page comes back without a next token, the next job for that user and kind fetches, writes and requeues nothing, whether it starts from the returned record or from the entry left in the cache |
| Workers.FollowersTwoPages | src/workers/followers.ts:28-42 | pages of 200 (cursor "c2") then 50 (no cursor) leave cursor `null`, 250 counted, 250 rows and no requeue |
| Csv.EscapeNewlines | src/csv.ts:34 | each newline becomes a backslash and `n`, so the text grows by one per newline and keeps no newline |
| Csv.EscapeKeepsOthers | src/csv.ts:34 | text without a newline is copied unchanged |
| Csv.QuoteField | src/csv.ts:33-35 | a field is its escaped text between two double quotes |
| Csv.ToCSVRow | src/csv.ts:31-37 | no field gives the empty string; otherwise the row starts with a quote and has no newline when the separator has none |
| Csv.RowLength | src/csv.ts:31-37 | a row of n fields is as long as its quoted, escaped fields plus n - 1 separators |
| Csv.ParseToCSVRow | src/csv.ts:31-37 | a reader of quoted fields recovers every escaped field when no field holds a double quote |
| Csv.UnescapeEscape | src/csv.ts:34 | unescaping undoes the escaping on text without a backslash |
| Csv.DecodeEncodedRow | src/csv.ts:31-37 | fields without double quotes and backslashes read back exactly, for any separator |
| Csv.NewlineEscapeIsLossy | src/csv.ts:34 | a field holding a newline and one holding backslash-n are written identically |
| Data.GetUsers | src/data.ts:35-43 | one entry per row, holding column 3 or `undefined` |
| Data.GetUsersOfPositions | src/data.ts:45-57 | `GetUsersOf` has one entry per row whose column 1 is the username, holding that row's column 3, in file order |
| Data.MapUsersMatchesGetUsersOf | src/data.ts:45-77 | `MapUsers` without a filter: the list under a username is exactly `_getUsersOf` of it, in file order ("undefined" aside when rows lack column 1) |
| Data.MapUsersFiltered | src/data.ts:59-77 | `MapUsers` with a filter: every key comes from the filter, and a filtered name maps to exactly its `_getUsersOf` list |
| Data.MapUsersKeys | src/data.ts:64-73 | `MapUsers` without a filter: a key is present exactly when some row carries it in column 1 |
| Data.MapUsersTotal | src/data.ts:59-77 | `MapUsers`: the lists hold as many entries in all as there are accepted rows |
| SocialDistance.UsernameKeyOrder | src/normalized-social-distance.ts:104-108 | `UsernameKey` is the two names joined by a dash in ascending comparator order, tied names keeping their order |
| SocialDistance.UsernameKeySymmetric | src/normalized-social-distance.ts:104-108 | the key of (a, b) is the key of (b, a) when the comparator separates them |
| SocialDistance.TiedNamesAreNotSymmetric | src/normalized-social-distance.ts:105-107 | two distinct dash-free names that collate alike get a different key per order |
| SocialDistance.KeyDeterminesPair | src/normalized-social-distance.ts:104-108 | for dash-free names, the key determines the unordered pair |
| SocialDistance.DashedNamesCollide | src/normalized-social-distance.ts:107 | names holding a dash can share a key |
| SocialDistance.PairInputs | src/normalized-social-distance.ts:53-57 | fx and fy are the mapped list lengths (0 for a missing name), and fi is the size of the set of values both lists hold (lodash `intersection`), so it exceeds neither |
| SocialDistance.PairInputsSwap | src/normalized-social-distance.ts:53-57 | swapping the names swaps fx and fy and keeps fi |
| SocialDistance.PairRowKeys | src/normalized-social-distance.ts:54-59 | `PairRow`, the inner loop, adds an entry exactly for the key of the name with each later name, keeping the earlier entries |
| SocialDistance.PairRowValue | src/normalized-social-distance.ts:54-59 | `PairRow`: an entry that every write under its key agrees on keeps that value |
| SocialDistance.PairAllKeys | src/normalized-social-distance.ts:51-60 | `PairAll`, the outer loop, adds an entry exactly for the key of every two positions i < j |
| SocialDistance.PairAllValue | src/normalized-social-distance.ts:51-60 | `PairAll`: an entry that every write under its key agrees on keeps that value |
| SocialDistance.CalculateDistancesKeys | src/normalized-social-distance.ts:48-62 | `CalculateDistances` has an entry exactly for the key of every two positions i < j of the list |
| SocialDistance.DistancesExact | src/normalized-social-distance.ts:51-59 | for distinct dash-free names, the entry of positions i < j holds exactly that pair's inputs |
| SocialDistance.NoSelfPair | src/normalized-social-distance.ts:51-59 | for distinct dash-free names, no name is paired with itself |
| SocialDistance.DistancesCover | src/normalized-social-distance.ts:48-62 | every two different names of the list have an entry, in either order, when the comparator separates them |
| SocialDistance.MatrixLayout | src/normalized-social-distance.ts:65-75 | `MatrixAt`, with `MatrixCell` for the inner cells: an empty corner, names along the top and the side, and a blank cell exactly where row and column name agree |
| SocialDistance.Matrix | src/normalized-social-distance.ts:64-77 | n + 1 rows of n + 1 cells |
| SocialDistance.MatrixSymmetric | src/normalized-social-distance.ts:73-74 | cells (i, j) and (j, i) are equal when the comparator orders the names |
| SocialDistance.MatrixDefined | src/normalized-social-distance.ts:66-75 | over the list's own distances every off-diagonal cell is defined, and for distinct dash-free names it holds that pair's inputs |
| SocialDistance.HeaderFields | src/normalized-social-distance.ts:65 | the header fields are an empty corner followed by the profile names, the rendered row 0 of the matrix |
| SocialDistance.ProfileFields | src/normalized-social-distance.ts:67-75 | the inner loop yields the profile's name and one `Render`ed cell per profile of the matrix row i + 1 |
| SocialDistance.RowFields | src/normalized-social-distance.ts:67-75 | with `Render` printing each cell, the fields of profile i's line are its name and then, per profile, an empty field for itself, the printed distance, or `undefined` for a missing entry: the rendered row i + 1 of the matrix |
| SocialDistance.Save | src/normalized-social-distance.ts:64-77 | n + 1 lines, each the CSV row of the rendered matrix row of the same index (`SaveLines`) |
| SocialDistance.FileText | src/normalized-social-distance.ts:83-86 | no line gives an empty file; otherwise the file starts with the first line and ends with a newline |
| SocialDistance.FileTextReadsBack | src/normalized-social-distance.ts:83-86 | splitting the written file at its newlines gives back exactly the lines, in order, when no line holds a newline |
| SocialDistance.FileLines | src/normalized-social-distance.ts:83-86 | with a separator free of newlines, the file has exactly one newline per line |
| SocialDistance.CreateMap | src/normalized-social-distance.ts:13-18 | the NSD file is the text of the `Save` lines over the distances of the profiles in the unfiltered user map of the downloaded table; it has exactly n + 1 lines for n profiles when the separator has no newline |

## Left out

- The job queues (`better-queue` with its concurrency, retries and retry delay), `enqueue`, `_startQueue` and its drain detector: this is scheduling in the runtime, not sequential logic. A requeue is the `requeue` flag of a worker step.
- Concurrency: interleaved workers sharing one record object, and the aliasing of the `userData` object that `handlePaginationToken` mutates in place. Each operation is modelled as one atomic step on immutable values.
- File and stream I/O: `writeRow`, the JSON record files, `CSV.readFile`, `_clear`, `_createTmpDir`, `_validateOutputDir`, `_connectRedis`, `init`, `start` and `exit`. What is read is an input, and what is written is a returned string.
- The remote API client (`getClient`, `userTimeline`, `followers`, `userByUsername`, `user`). Its answers are inputs.
- `randomNumber`: `GetToken` takes the drawn number as a parameter.
- `wait`: the clock advances by exactly `availableIn`. Node clamps timer delays above 2^31 - 1 ms to 1 ms, and that clamp is not modelled.
- ResumeStore.GetUserData: the credential wait inside it (`getApp(EData.TWEETS)` at src/downloader.ts:171) is not threaded through; the remote lookup is an input.
- ResumeStore.UpdateUserData: requires the patch to carry every field on a cache miss. The code would store a partial record, but both callers pass whole records.
- TokenPool.SoonestAvailable: proves order only when every app has a reset. With a missing reset the comparator returns `NaN`, and the order then depends on the engine's sort; that call only happens when every app is locked, so every app has a reset.
- `createMapFromAffinityData`, src/friends.ts and src/affinity.ts: the affinity pipeline. Its profile list comes from follower rows and can hold `undefined`.
- The floating-point distance formula and the crawl-time estimates of `_validateProfiles`. The model keeps the integer inputs (fx, fy, fi) and abstracts printing as `show`.
- The profile loop of `_validateProfiles` (src/downloader.ts:347-352): it calls `getUserData` for every profile during start-up. That caches each remote record and aborts start-up on the first failed lookup. Its only other output is the estimate above. A single lookup is `ResumeStore.GetUserData`; the sequence of them is not modelled.
- `getProfileInfo`, `getFollowers`, `getFollowings`, `mapFollowers` and `mapFollowings` are one-line wrappers over the modelled `_getUsers`, `_getUsersOf` and `_mapUsers`. `_getMap` is `_mapUsers` without a filter.
- src/workers/followings.ts and src/typings/enums are not part of this model. The followings worker presumably mirrors the followers worker.
- Object property oddities: keys such as `__proto__` or `constructor` on the plain objects used as maps. Every string is an ordinary key here.
- `localeCompare`: it is the parameter `less`. Properties that need a consistent order state it as a requirement (`TotalOn`).
- The NSD file is written with the `CSV` helper of the external mat-utils package, which is not part of this model. Its rows are encoded here with the rule of src/csv.ts, and the separator is a parameter.
- Configuration, logging, src/index.ts and the deprecated helpers (`toCSVRow`, `saveUserData`, `getCSVSeparator`, the stream getters).

=== FILE: app.dfy ===
/** One registered application of the remote API: a set of interchangeable
    bearer tokens and, per data kind, the instant its rate limit resets.
    Time is an explicit integer number of milliseconds; `now` stands for
    `new Date()`. */
module Credentials {
  import opened Types

  /** `App`: `resets` is `_dataRateLimitReset`; a kind without an entry has
      never been locked. */
  datatype App = App(id: string, tokens: seq<string>, resets: map<Kind, int>)

  /** The error a method call on `null` raises. */
  datatype TypeError = NullResetTime

  /** `new App(id, tokens)`: no kind is locked yet. */
  function NewApp(id: string, tokens: seq<string>): (a: App)
    ensures a.id == id && a.tokens == tokens
    ensures forall k: Kind :: ResetTime(a, k) == None
  {
    App(id, tokens, map[])
  }

  /** `getRateLimitResetTime`: the recorded reset instant, or `null`. */
  function ResetTime(a: App, k: Kind): Option<int> {
    if k in a.resets then Some(a.resets[k]) else None
  }

  /** `lock(dataType, until)`: records `until` for `k`, overwriting any
      earlier instant, and touches nothing else. */
  function Lock(a: App, k: Kind, until: int): (r: App)
    ensures ResetTime(r, k) == Some(until)
    ensures forall k': Kind :: k' != k ==> ResetTime(r, k') == ResetTime(a, k')
    ensures r.id == a.id && r.tokens == a.tokens
  {
    a.(resets := a.resets[k := until])
  }

  /** `isLocked(dataType)`: a missing reset time means unlocked; otherwise
      the app is locked while the reset lies strictly in the future. */
  predicate IsLocked(a: App, k: Kind, now: int) {
    match ResetTime(a, k)
    case None => false
    case Some(t) => t > now
  }

  /** `getAvailableIn(dataType)`: milliseconds until the reset; calling
      `getTime()` on a missing reset throws. */
  function AvailableIn(a: App, k: Kind, now: int): (r: Result<int, TypeError>)
    ensures r.Failure? <==> ResetTime(a, k).None?
    ensures r.Success? ==> now + r.value == ResetTime(a, k).value
    ensures r.Success? ==> (r.value > 0 <==> IsLocked(a, k, now))
  {
    match ResetTime(a, k)
    case None => Failure(NullResetTime)
    case Some(t) => Success(t - now)
  }

  /** A freshly locked app is locked exactly until the given instant: at
      `until` itself it is free again, and an earlier lock is forgotten. */
  lemma LockedUntil(a: App, k: Kind, until: int, now: int)
    ensures IsLocked(Lock(a, k, until), k, now) <==> now < until
    ensures !IsLocked(Lock(a, k, until), k, until)
  {
  }

  /** A lock can only lapse: an app with no reset is never locked, and an
      app locked at some instant was already locked at every earlier one. */
  lemma LockOnlyLapses(a: App, k: Kind, now: int, later: int)
    requires now <= later
    ensures ResetTime(a, k).None? ==> !IsLocked(a, k, now)
    ensures IsLocked(a, k, later) ==> IsLocked(a, k, now)
  {
  }

  /** The app after a sequence of `lock` calls, the last pair applied last. */
  function ApplyLocks(a: App, locks: seq<(Kind, int)>): App {
    if |locks| == 0 then a
    else
      var (k, until) := locks[|locks| - 1];
      Lock(ApplyLocks(a, locks[..|locks| - 1]), k, until)
  }

  /** The instant of the last lock of kind `k` in the sequence, if any. */
  function LastLock(locks: seq<(Kind, int)>, k: Kind): Option<int> {
    if |locks| == 0 then None
    else if locks[|locks| - 1].0 == k then Some(locks[|locks| - 1].1)
    else LastLock(locks[..|locks| - 1], k)
  }

  /** `getRateLimitResetTime` reports the most recent lock of the kind, and
      the app's original reset (none, for a new app) when that kind was
      never locked. */
  lemma {:induction false} ResetTimeAfterLocks(a: App, locks: seq<(Kind, int)>, k: Kind)
    ensures LastLock(locks, k).Some? ==> ResetTime(ApplyLocks(a, locks), k) == LastLock(locks, k)
    ensures LastLock(locks, k).None? ==> ResetTime(ApplyLocks(a, locks), k) == ResetTime(a, k)
  {
    if |locks| > 0 {
      ResetTimeAfterLocks(a, locks[..|locks| - 1], k);
    }
  }

  /** Locking one kind never changes whether another kind is locked. */
  lemma LockOtherKind(a: App, k: Kind, k': Kind, until: int, now: int)
    requires k != k'
    ensures IsLocked(Lock(a, k, until), k', now) == IsLocked(a, k', now)
  {
    assert ResetTime(Lock(a, k, until), k') == ResetTime(a, k');
  }

  /** The bounds `getToken` passes to `randomNumber`. */
  function DrawLow(a: App): int { 0 }
  function DrawHigh(a: App): int { |a.tokens| - 1 }

  /** `getToken()`: `tokens[draw]` for the number `draw` that
      `randomNumber(0, tokens.length - 1)` produced; an index outside the
      array reads `undefined`. */
  function GetToken(a: App, draw: int): (r: Option<string>)
    ensures DrawLow(a) <= draw <= DrawHigh(a) ==> r.Some?
    ensures r.Some? ==> r.value in a.tokens
  {
    if 0 <= draw < |a.tokens| then Some(a.tokens[draw]) else None
  }

  /** Every token of the app is the outcome of some draw within the bounds,
      so the random choice can reach every token. */
  lemma EveryTokenDrawable(a: App, t: string)
    requires t in a.tokens
    ensures exists draw :: DrawLow(a) <= draw <= DrawHigh(a) && GetToken(a, draw) == Some(t)
  {
    var i :| 0 <= i < |a.tokens| && a.tokens[i] == t;
    assert GetToken(a, i) == Some(t);
  }
}

=== FILE: csv.dfy ===
/** `CSV.toCSVRow`: every field is wrapped in double quotes with its
    newlines written as backslash-n, and the wrapped fields are joined by
    the configured separator. Reading CSV files is left out; the reader
    below is the partner the encoder is measured against. */
module Csv {
  import opened Types

  /** The number of newline characters in `s`. */
  function Newlines(s: string): nat {
    if |s| == 0 then 0 else (if s[0] == '\n' then 1 else 0) + Newlines(s[1..])
  }

  /** The newline escape of `toCSVRow`: each newline becomes the two
      characters backslash and `n`; the result holds no newline. */
  function EscapeNewlines(s: string): (r: string)
    ensures |r| == |s| + Newlines(s)
    ensures '\n' !in r
  {
    if |s| == 0 then ""
    else (if s[0] == '\n' then "\\n" else [s[0]]) + EscapeNewlines(s[1..])
  }

  /** Escaping works character by character, so it distributes over
      concatenation. */
  lemma {:induction false} EscapeConcat(a: string, b: string)
    ensures EscapeNewlines(a + b) == EscapeNewlines(a) + EscapeNewlines(b)
    decreases |a|
  {
    if |a| == 0 {
      assert a + b == b;
    } else {
      var h := if a[0] == '\n' then "\\n" else [a[0]];
      var x, y := EscapeNewlines(a[1..]), EscapeNewlines(b);
      assert EscapeNewlines(a + b) == h + EscapeNewlines(a[1..] + b) by {
        assert (a + b)[0] == a[0] && (a + b)[1..] == a[1..] + b;
      }
      EscapeConcat(a[1..], b);
      assert h + (x + y) == (h + x) + y;
    }
  }

  /** Every character other than a newline, quotes and separators
      included, is copied unchanged. */
  lemma {:induction false} EscapeKeepsOthers(s: string)
    requires '\n' !in s
    ensures EscapeNewlines(s) == s
    decreases |s|
  {
    if |s| > 0 {
      EscapeKeepsOthers(s[1..]);
    }
  }

  /** One field of `toCSVRow`, wrapped in quotes and then escaped: one
      leading and one trailing double quote around the escaped field. */
  function QuoteField(item: string): (r: string)
    ensures r == "\"" + EscapeNewlines(item) + "\""
    ensures |r| == |item| + 2 + Newlines(item)
  {
    EscapeConcat("\"", item);
    EscapeConcat("\"" + item, "\"");
    EscapeNewlines("\"" + item + "\"")
  }

  /** `toCSVRow(...data)`: the quoted fields joined by `sep`; no field gives
      the empty string. */
  function ToCSVRow(sep: string, fields: seq<string>): (r: string)
    ensures |fields| == 0 ==> r == ""
    ensures |fields| > 0 ==> |r| > 0 && r[0] == '"'
    ensures '\n' !in sep ==> '\n' !in r
  {
    if |fields| == 0 then ""
    else if |fields| == 1 then QuoteField(fields[0])
    else QuoteField(fields[0]) + sep + ToCSVRow(sep, fields[1..])
  }

  /** The characters the encoding spends on the fields themselves. */
  function FieldsCost(fields: seq<string>): nat {
    if |fields| == 0 then 0 else |fields[0]| + 2 + Newlines(fields[0]) + FieldsCost(fields[1..])
  }

  /** For n >= 1 fields, the row is as long as its quoted, escaped fields
      plus n - 1 separators. */
  lemma {:induction false} RowLength(sep: string, fields: seq<string>)
    requires |fields| >= 1
    ensures |ToCSVRow(sep, fields)| == FieldsCost(fields) + (|fields| - 1) * |sep|
    decreases |fields|
  {
    if |fields| == 1 {
      assert FieldsCost(fields) == |QuoteField(fields[0])| + FieldsCost(fields[1..]);
    } else {
      var rest := fields[1..];
      RowLength(sep, rest);
      assert (|fields| - 1) * |sep| == |sep| + (|rest| - 1) * |sep| by {
        var n, m := |rest|, |sep|;
        assert n * m == m + (n - 1) * m;
      }
      assert FieldsCost(fields) == |QuoteField(fields[0])| + FieldsCost(rest);
      assert |ToCSVRow(sep, fields)| == |QuoteField(fields[0])| + |sep| + |ToCSVRow(sep, rest)|;
    }
  }

  /** The text up to the next double quote, and what follows that quote. */
  function ReadUntilQuote(s: string): (r: Option<(string, string)>)
    ensures r.Some? ==> |r.value.1| < |s|
  {
    if |s| == 0 then None
    else if s[0] == '"' then Some(("", s[1..]))
    else match ReadUntilQuote(s[1..])
      case None => None
      case Some(p) => Some(([s[0]] + p.0, p.1))
  }

  /** A quoted field at the start of `s`: its content and the remainder. */
  function ReadQuoted(s: string): (r: Option<(string, string)>)
    ensures r.Some? ==> |r.value.1| < |s|
  {
    if |s| == 0 || s[0] != '"' then None else ReadUntilQuote(s[1..])
  }

  /** A reader for rows of quoted fields separated by `sep`, for fields
      without embedded quotes: the contents of the fields, still escaped. */
  function ParseRow(line: string, sep: string): Option<seq<string>>
    decreases |line|
  {
    match ReadQuoted(line)
    case None => None
    case Some(p) =>
      var (content, rest) := p;
      if rest == "" then Some([content])
      else if |sep| <= |rest| && rest[..|sep|] == sep then
        match ParseRow(rest[|sep|..], sep)
        case None => None
        case Some(more) => Some([content] + more)
      else None
  }

  /** Undoes `EscapeNewlines` on text that had no backslash. */
  function UnescapeNewlines(s: string): string {
    if |s| == 0 then ""
    else if |s| >= 2 && s[0] == '\\' && s[1] == 'n' then "\n" + UnescapeNewlines(s[2..])
    else [s[0]] + UnescapeNewlines(s[1..])
  }

  /** Reading back a row: parse the quoted fields, then unescape each. */
  function DecodeRow(line: string, sep: string): Option<seq<string>> {
    match ParseRow(line, sep)
    case None => None
    case Some(fs) => Some(seq(|fs|, i requires 0 <= i < |fs| => UnescapeNewlines(fs[i])))
  }

  lemma {:induction false} ReadUntilQuoteOf(c: string, t: string)
    requires '"' !in c
    ensures ReadUntilQuote(c + "\"" + t) == Some((c, t))
    decreases |c|
  {
    if |c| > 0 {
      ReadUntilQuoteOf(c[1..], t);
      assert (c + "\"" + t)[0] == c[0];
      assert (c + "\"" + t)[1..] == c[1..] + "\"" + t;
      assert [c[0]] + c[1..] == c;
    } else {
      assert c + "\"" + t == "\"" + t;
    }
  }

  lemma {:induction false} EscapeAddsNoQuote(s: string)
    requires '"' !in s
    ensures '"' !in EscapeNewlines(s)
    decreases |s|
  {
    if |s| > 0 {
      EscapeAddsNoQuote(s[1..]);
    }
  }

  /** The escaped contents of the fields. */
  function Escaped(fields: seq<string>): (r: seq<string>)
    ensures |r| == |fields|
    ensures forall i :: 0 <= i < |fields| ==> r[i] == EscapeNewlines(fields[i])
  {
    if |fields| == 0 then [] else [EscapeNewlines(fields[0])] + Escaped(fields[1..])
  }

  /** A quoted field free of double quotes reads back as its content,
      followed by whatever comes after the closing quote. */
  lemma ReadQuotedOf(c: string, t: string)
    requires '"' !in c
    ensures ReadQuoted("\"" + c + "\"" + t) == Some((c, t))
  {
    ReadUntilQuoteOf(c, t);
    assert ("\"" + c + "\"" + t)[1..] == c + "\"" + t;
  }

  /** The last field of a row. */
  lemma ParseLastField(c: string, sep: string)
    requires '"' !in c
    ensures ParseRow("\"" + c + "\"", sep) == Some([c])
  {
    ReadQuotedOf(c, "");
    assert "\"" + c + "\"" + "" == "\"" + c + "\"";
  }

  /** A field, the separator, and the rest of a row that parses. */
  lemma ParseNextField(c: string, sep: string, rest: string)
    requires '"' !in c && |rest| > 0 && ParseRow(rest, sep).Some?
    ensures ParseRow("\"" + c + "\"" + sep + rest, sep) == Some([c] + ParseRow(rest, sep).value)
  {
    var tail := sep + rest;
    assert "\"" + c + "\"" + sep + rest == "\"" + c + "\"" + tail;
    ReadQuotedOf(c, tail);
    assert tail != "";
    assert tail[..|sep|] == sep && tail[|sep|..] == rest;
  }

  /** The reader recovers every field of an encoded row, escaped, as long
      as no field holds a double quote. */
  lemma {:induction false} ParseToCSVRow(sep: string, fields: seq<string>)
    requires |fields| >= 1
    requires forall i :: 0 <= i < |fields| ==> '"' !in fields[i]
    ensures ParseRow(ToCSVRow(sep, fields), sep) == Some(Escaped(fields))
    decreases |fields|
  {
    var e := EscapeNewlines(fields[0]);
    EscapeAddsNoQuote(fields[0]);
    if |fields| == 1 {
      ParseLastField(e, sep);
      assert Escaped(fields) == [e];
    } else {
      var rest := fields[1..];
      assert forall i :: 0 <= i < |rest| ==> '"' !in rest[i] by {
        forall i | 0 <= i < |rest| ensures '"' !in rest[i] {
          assert rest[i] == fields[i + 1];
        }
      }
      ParseToCSVRow(sep, rest);
      var tail := ToCSVRow(sep, rest);
      assert |tail| > 0;
      ParseNextField(e, sep, tail);
    }
  }

  lemma {:induction false} UnescapeEscape(s: string)
    requires '\\' !in s
    ensures UnescapeNewlines(EscapeNewlines(s)) == s
    decreases |s|
  {
    if |s| > 0 {
      UnescapeEscape(s[1..]);
      if s[0] == '\n' {
        assert EscapeNewlines(s) == "\\n" + EscapeNewlines(s[1..]);
      } else {
        var r := EscapeNewlines(s);
        assert r == [s[0]] + EscapeNewlines(s[1..]);
        assert r[1..] == EscapeNewlines(s[1..]);
      }
    }
  }

  /** Round trip: a row of fields free of double quotes and backslashes
      reads back as exactly those fields, whatever the separator. */
  lemma DecodeEncodedRow(sep: string, fields: seq<string>)
    requires |fields| >= 1
    requires forall i :: 0 <= i < |fields| ==> '"' !in fields[i] && '\\' !in fields[i]
    ensures DecodeRow(ToCSVRow(sep, fields), sep) == Some(fields)
  {
    ParseToCSVRow(sep, fields);
    var fs := Escaped(fields);
    var decoded := seq(|fs|, i requires 0 <= i < |fs| => UnescapeNewlines(fs[i]));
    assert DecodeRow(ToCSVRow(sep, fields), sep) == Some(decoded);
    forall i | 0 <= i < |fields|
      ensures decoded[i] == fields[i]
    {
      UnescapeEscape(fields[i]);
    }
    assert decoded == fields;
  }

  /** The escaping loses information: a field holding a newline and a
      field holding a backslash followed by `n` are written identically. */
  lemma NewlineEscapeIsLossy(sep: string)
    ensures ToCSVRow(sep, ["\n"]) == ToCSVRow(sep, ["\\n"])
  {
    assert EscapeNewlines("\n") == "\\n";
    assert EscapeNewlines("\\n") == "\\n" by {
      EscapeKeepsOthers("\\n");
    }
  }
}

=== FILE: data.dfy ===
/** `Data`: queries over the rows of a followers or followings CSV file,
    read without headers, so that a row's columns are keyed '0', '1', ...
    Column 1 holds the crawled username and column 3 the related user.
    Reading the file is left out: the rows are the input. */
module Data {
  import opened Types

  type Row = seq<string>

  /** `row['i']`: a column the row does not have reads `undefined`. */
  function Cell(row: Row, i: nat): Option<string> {
    if i < |row| then Some(row[i]) else None
  }

  /** The key an object literal stores a value under: `undefined` is
      coerced to the string "undefined". */
  function PropertyKey(c: Option<string>): string {
    match c
    case Some(s) => s
    case None => "undefined"
  }

  /** `_getUsers`: column 3 of every row, in file order. */
  function GetUsers(rows: seq<Row>): (r: seq<Option<string>>)
    ensures |r| == |rows|
    ensures forall i :: 0 <= i < |rows| ==> r[i] == Cell(rows[i], 3)
  {
    if |rows| == 0 then [] else GetUsers(rows[..|rows| - 1]) + [Cell(rows[|rows| - 1], 3)]
  }

  /** `_getUsersOf(username)`: column 3 of the rows whose column 1 is
      `username`, in file order. */
  function GetUsersOf(rows: seq<Row>, username: string): seq<Option<string>> {
    if |rows| == 0 then []
    else
      var last := rows[|rows| - 1];
      GetUsersOf(rows[..|rows| - 1], username) + (if Cell(last, 1) == Some(username) then [Cell(last, 3)] else [])
  }

  /** The number of rows whose column 1 is `username`. */
  function Matches(rows: seq<Row>, username: string): nat {
    if |rows| == 0 then 0
    else Matches(rows[..|rows| - 1], username) + (if Cell(rows[|rows| - 1], 1) == Some(username) then 1 else 0)
  }

  /** `_getUsersOf` holds one entry per row whose column 1 is `username`:
      such a row's column 3 sits at the position counting the matching
      rows before it, so the entries keep file order. */
  lemma {:induction false} GetUsersOfPositions(rows: seq<Row>, username: string)
    ensures |GetUsersOf(rows, username)| == Matches(rows, username)
    ensures forall i :: 0 <= i < |rows| && Cell(rows[i], 1) == Some(username) ==>
      Matches(rows[..i], username) < |GetUsersOf(rows, username)| &&
      GetUsersOf(rows, username)[Matches(rows[..i], username)] == Cell(rows[i], 3)
  {
    if |rows| > 0 {
      var p := rows[..|rows| - 1];
      GetUsersOfPositions(p, username);
      forall i | 0 <= i < |rows| && Cell(rows[i], 1) == Some(username)
        ensures Matches(rows[..i], username) < |GetUsersOf(rows, username)|
        ensures GetUsersOf(rows, username)[Matches(rows[..i], username)] == Cell(rows[i], 3)
      {
        if i < |p| {
          assert rows[..i] == p[..i] && rows[i] == p[i];
        } else {
          assert rows[..i] == p;
        }
      }
    }
  }

  /** Whether `_mapUsers` keeps a row: without a filter list every row is
      kept; with one, only rows whose column 1 is in the list. The list
      may itself hold `undefined` (a follower read from a row without
      column 3), which then admits the rows without column 1. */
  predicate Accepts(filter: Option<seq<Option<string>>>, row: Row) {
    filter.None? || Cell(row, 1) in filter.value
  }

  /** The list stored under `key`, or the empty list. */
  function Lookup(m: map<string, seq<Option<string>>>, key: string): seq<Option<string>> {
    if key in m then m[key] else []
  }

  /** `_mapUsers(typeData, usernames)`: column 3 of each accepted row is
      appended to the list kept under the row's column 1. */
  function MapUsers(rows: seq<Row>, filter: Option<seq<Option<string>>>): map<string, seq<Option<string>>> {
    if |rows| == 0 then map[]
    else
      var m := MapUsers(rows[..|rows| - 1], filter);
      var row := rows[|rows| - 1];
      if !Accepts(filter, row) then m
      else
        var key := PropertyKey(Cell(row, 1));
        m[key := Lookup(m, key) + [Cell(row, 3)]]
  }

  /** The number of rows `_mapUsers` keeps. */
  function AcceptedCount(rows: seq<Row>, filter: Option<seq<Option<string>>>): nat {
    if |rows| == 0 then 0
    else AcceptedCount(rows[..|rows| - 1], filter) + (if Accepts(filter, rows[|rows| - 1]) then 1 else 0)
  }

  /** The sum of the lengths of the lists of `m`. */
  ghost function TotalLength(m: map<string, seq<Option<string>>>): nat
    decreases |m|
  {
    if |m| == 0 then 0
    else
      var k := PickKey(m);
      |m[k]| + TotalLength(m - {k})
  }

  ghost function PickKey(m: map<string, seq<Option<string>>>): (k: string)
    requires |m| > 0
    ensures k in m
  {
    var k :| k in m; k
  }

  /** The total length does not depend on which key is removed first. */
  lemma {:induction false} TotalLengthRemove(m: map<string, seq<Option<string>>>, k: string)
    requires k in m
    ensures TotalLength(m) == |m[k]| + TotalLength(m - {k})
    decreases |m|
  {
    var j := PickKey(m);
    if j != k {
      var mj := m - {j};
      var mk := m - {k};
      TotalLengthRemove(mj, k);
      TotalLengthRemove(mk, j);
      assert mj - {k} == mk - {j};
    }
  }

  /** Appending one element under `key` lengthens the total by one. */
  lemma TotalLengthAppend(m: map<string, seq<Option<string>>>, key: string, x: Option<string>)
    ensures TotalLength(m[key := Lookup(m, key) + [x]]) == TotalLength(m) + 1
  {
    var m' := m[key := Lookup(m, key) + [x]];
    TotalLengthRemove(m', key);
    assert m' - {key} == m - {key};
    if key in m {
      TotalLengthRemove(m, key);
    } else {
      assert m - {key} == m;
    }
  }

  /** Every list is as long as the number of accepted rows, counted
      across all keys: no accepted row is lost or counted twice. */
  lemma {:induction false} MapUsersTotal(rows: seq<Row>, filter: Option<seq<Option<string>>>)
    ensures TotalLength(MapUsers(rows, filter)) == AcceptedCount(rows, filter)
    decreases |rows|
  {
    if |rows| > 0 {
      var p := rows[..|rows| - 1];
      var row := rows[|rows| - 1];
      MapUsersTotal(p, filter);
      if Accepts(filter, row) {
        TotalLengthAppend(MapUsers(p, filter), PropertyKey(Cell(row, 1)), Cell(row, 3));
      }
    }
  }

  /** With a filter list, every key of the map comes from that list, and
      the list under a name of the filter is exactly `_getUsersOf` of it;
      a name outside the filter has no entry. "undefined" is the exception
      when the filter holds `undefined`, as the rows without column 1 then
      land under that key. */
  lemma {:induction false} MapUsersFiltered(rows: seq<Row>, names: seq<Option<string>>, u: string)
    requires u != "undefined" || None !in names
    ensures forall key :: key in MapUsers(rows, Some(names)) ==>
      Some(key) in names || (key == "undefined" && None in names)
    ensures Lookup(MapUsers(rows, Some(names)), u) == if Some(u) in names then GetUsersOf(rows, u) else []
    decreases |rows|
  {
    if |rows| > 0 {
      MapUsersFiltered(rows[..|rows| - 1], names, u);
    }
  }

  /** Without a filter, the list `_mapUsers` keeps under a username is
      exactly what `_getUsersOf` returns for it, in the same order. The
      name "undefined" is the exception when some row lacks column 1, as
      such rows land under that key. */
  lemma {:induction false} MapUsersMatchesGetUsersOf(rows: seq<Row>, u: string)
    requires u != "undefined" || forall i :: 0 <= i < |rows| ==> |rows[i]| > 1
    ensures Lookup(MapUsers(rows, None), u) == GetUsersOf(rows, u)
    decreases |rows|
  {
    if |rows| > 0 {
      var p := rows[..|rows| - 1];
      assert u != "undefined" || forall i :: 0 <= i < |p| ==> |p[i]| > 1 by {
        if u == "undefined" {
          forall i | 0 <= i < |p| ensures |p[i]| > 1 {
            assert p[i] == rows[i];
          }
        }
      }
      MapUsersMatchesGetUsersOf(p, u);
    }
  }

  /** Without a filter, a key is present exactly when some row carries it
      in column 1 (read as a property key). */
  lemma {:induction false} MapUsersKeys(rows: seq<Row>, key: string)
    ensures key in MapUsers(rows, None) <==> exists i :: 0 <= i < |rows| && PropertyKey(Cell(rows[i], 1)) == key
    decreases |rows|
  {
    if |rows| > 0 {
      var p := rows[..|rows| - 1];
      MapUsersKeys(p, key);
      if key in MapUsers(p, None) {
        var i :| 0 <= i < |p| && PropertyKey(Cell(p[i], 1)) == key;
        assert rows[i] == p[i];
      }
      if exists i :: 0 <= i < |rows| && PropertyKey(Cell(rows[i], 1)) == key {
        var i :| 0 <= i < |rows| && PropertyKey(Cell(rows[i], 1)) == key;
        if i < |p| {
          assert p[i] == rows[i];
        }
      }
    }
  }
}

=== FILE: downloader.dfy ===
/** The sequential parts of `Downloader`: the wait-and-retry credential
    acquisition of `getApp`, and the start-up validation of the token table
    and the profile list. Queues, streams and files are left out. */
module Downloader {
  import opened Types
  import opened Credentials
  import opened TokenPool

  /** The pool, the app handed out (as a position in the pool) and the clock
      once `getApp` returns. */
  datatype Acquired = Acquired(pool: seq<App>, app: nat, now: int)

  /** `Downloader.getApp(dataType)`: take the first free app; when every
      app is locked, reorder the pool by reset instant, wait until the
      soonest app's reset and try again. The clock only moves forward, and
      the app handed out is free for `k` at the returned instant. Without a
      wait the pool and the clock are untouched and the app is the one
      `getApp` of the pool picks; with one, the clock stops at the
      earliest reset instant of the pool, the pool stays reordered by reset
      instant for every later `getApp`, and its head is handed out. */
  function AwaitApp(pool: seq<App>, k: Kind, now: int): (r: Acquired)
    requires |pool| > 0
    ensures r.app < |r.pool| && !IsLocked(r.pool[r.app], k, r.now)
    ensures r.now >= now
    ensures |r.pool| == |pool| && multiset(r.pool) == multiset(pool)
    ensures GetApp(pool, k, now).Some? ==> r == Acquired(pool, GetApp(pool, k, now).value, now)
    ensures GetApp(pool, k, now).None? ==> AllHaveReset(pool, k) && AllHaveReset(r.pool, k)
    ensures GetApp(pool, k, now).None? ==> r.pool == SoonestAvailable(pool, k) && SortedByReset(r.pool, k)
    ensures GetApp(pool, k, now).None? ==> r.app == 0 && r.now == ResetTime(r.pool[0], k).value
    ensures GetApp(pool, k, now).None? ==> forall j :: 0 <= j < |pool| ==> r.now <= ResetTime(pool[j], k).value
    decreases LockedCount(pool, k, now)
  {
    match GetApp(pool, k, now)
    case Some(i) => Acquired(pool, i, now)
    case None =>
      AllLockedHaveReset(pool, k, now);
      var sorted := SoonestAvailable(pool, k);
      assert IsLocked(sorted[0], k, now) by {
        assert sorted[0] in multiset(pool);
        var j :| 0 <= j < |pool| && pool[j] == sorted[0];
      }
      var wait := AvailableIn(sorted[0], k, now).value;
      var later := now + wait;
      AllLockedCount(pool, k, now);
      assert !IsLocked(sorted[0], k, later);
      FirstFreeAfterWait(sorted, k, later);
      AwaitApp(sorted, k, later)
  }

  /** Three apps locked until 5 s, 2 s and 3 s after `t`: the wait leaves
      the pool in reset order B, C, A, the order later calls scan. */
  lemma ReorderedPoolScenario(t: int)
    ensures var a := Lock(NewApp("A", ["ta"]), Tweets, t + 5000);
            var b := Lock(NewApp("B", ["tb"]), Tweets, t + 2000);
            var c := Lock(NewApp("C", ["tc"]), Tweets, t + 3000);
            var r := AwaitApp([a, b, c], Tweets, t);
            r.now == t + 2000 && |r.pool| == 3 &&
            r.pool[0].id == "B" && r.pool[1].id == "C" && r.pool[2].id == "A"
  {
    var a := Lock(NewApp("A", ["ta"]), Tweets, t + 5000);
    var b := Lock(NewApp("B", ["tb"]), Tweets, t + 2000);
    var c := Lock(NewApp("C", ["tc"]), Tweets, t + 3000);
    assert ResetTime(a, Tweets) == Some(t + 5000) && ResetTime(b, Tweets) == Some(t + 2000) && ResetTime(c, Tweets) == Some(t + 3000);
    assert GetApp([a, b, c], Tweets, t).None?;
    assert SortByReset([c], Tweets) == [c];
    assert SortByReset([b, c], Tweets) == Insert(b, [c], Tweets) == [b, c] by {
      assert [b, c][1..] == [c];
    }
    assert Insert(a, [c], Tweets) == [c, a];
    assert SortByReset([a, b, c], Tweets) == Insert(a, [b, c], Tweets) == [b, c, a] by {
      assert [a, b, c][1..] == [b, c];
      assert [b, c][1..] == [c];
    }
    assert GetApp([b, c, a], Tweets, t + 2000) == Some(0);
  }

  /** An app locked for `k` has a reset instant for `k`. */
  lemma AllLockedHaveReset(pool: seq<App>, k: Kind, now: int)
    requires forall j :: 0 <= j < |pool| ==> IsLocked(pool[j], k, now)
    ensures AllHaveReset(pool, k)
  {
  }

  /** After the wait, the head of the reordered pool is free, so the retry
      finds it without waiting again, and fewer apps are locked. */
  lemma FirstFreeAfterWait(sorted: seq<App>, k: Kind, later: int)
    requires |sorted| > 0 && !IsLocked(sorted[0], k, later)
    ensures GetApp(sorted, k, later) == Some(0)
    ensures LockedCount(sorted, k, later) < |sorted|
  {
  }

  /** Two apps locked until 5 s and 2 s after `t`: the caller resumes at
      `t + 2000` with the app whose lock ends first. */
  lemma SoonestWaitScenario(t: int)
    ensures var a := Lock(NewApp("A", ["ta"]), Followers, t + 5000);
            var b := Lock(NewApp("B", ["tb"]), Followers, t + 2000);
            var r := AwaitApp([a, b], Followers, t);
            r.now == t + 2000 && r.pool[r.app].id == "B"
  {
    var a := Lock(NewApp("A", ["ta"]), Followers, t + 5000);
    var b := Lock(NewApp("B", ["tb"]), Followers, t + 2000);
    var r := AwaitApp([a, b], Followers, t);
    assert GetApp([a, b], Followers, t).None?;
    assert multiset(r.pool) == multiset([a, b]);
    assert r.pool[0] in multiset([a, b]);
  }

  /** `ITokenRow`: one line of the token table. */
  datatype TokenRow = TokenRow(app: string, token: string)

  /** The lookup `_validateTokens` does for each row: the position of the
      first application already collected under the row's id. */
  function FindId(apps: seq<AppTokenInfo>, id: string): (r: Option<nat>)
    ensures r.Some? ==> r.value < |apps| && apps[r.value].id == id
    ensures r.Some? ==> forall j :: 0 <= j < r.value ==> apps[j].id != id
    ensures r.None? <==> forall j :: 0 <= j < |apps| ==> apps[j].id != id
  {
    if |apps| == 0 then None
    else if apps[0].id == id then Some(0)
    else match FindId(apps[1..], id)
      case None => None
      case Some(i) => Some(i + 1)
  }

  /** One step of the `reduce` in `_validateTokens`: the token joins the
      application of its id, or opens a new application at the end. */
  function AddRow(apps: seq<AppTokenInfo>, row: TokenRow): seq<AppTokenInfo> {
    match FindId(apps, row.app)
    case Some(i) => apps[i := AppTokenInfo(apps[i].id, apps[i].tokens + [row.token])]
    case None => apps + [AppTokenInfo(row.app, [row.token])]
  }

  /** The grouping `reduce` of `_validateTokens`, a left fold over the rows. */
  function GroupTokens(rows: seq<TokenRow>): seq<AppTokenInfo> {
    if |rows| == 0 then [] else AddRow(GroupTokens(rows[..|rows| - 1]), rows[|rows| - 1])
  }

  /** Reference definitions the grouping is measured against. */
  function RowIds(rows: seq<TokenRow>): seq<string> {
    seq(|rows|, i requires 0 <= i < |rows| => rows[i].app)
  }

  function Ids(apps: seq<AppTokenInfo>): seq<string> {
    seq(|apps|, i requires 0 <= i < |apps| => apps[i].id)
  }

  /** The distinct elements of `s` in order of first appearance. */
  function Dedup(s: seq<string>): seq<string> {
    if |s| == 0 then []
    else if s[|s| - 1] in s[..|s| - 1] then Dedup(s[..|s| - 1])
    else Dedup(s[..|s| - 1]) + [s[|s| - 1]]
  }

  /** The tokens of the rows naming application `id`, in row order. */
  function TokensOf(rows: seq<TokenRow>, id: string): seq<string> {
    if |rows| == 0 then []
    else TokensOf(rows[..|rows| - 1], id) + (if rows[|rows| - 1].app == id then [rows[|rows| - 1].token] else [])
  }

  function TotalTokens(apps: seq<AppTokenInfo>): nat {
    if |apps| == 0 then 0 else TotalTokens(apps[..|apps| - 1]) + |apps[|apps| - 1].tokens|
  }

  lemma {:induction false} DedupMembers(s: seq<string>)
    ensures forall x :: x in Dedup(s) <==> x in s
    decreases |s|
  {
    if |s| > 0 {
      DedupMembers(s[..|s| - 1]);
      assert s == s[..|s| - 1] + [s[|s| - 1]];
    }
  }

  lemma {:induction false} TokensOfAbsent(rows: seq<TokenRow>, id: string)
    requires id !in RowIds(rows)
    ensures TokensOf(rows, id) == []
    decreases |rows|
  {
    if |rows| > 0 {
      var p := rows[..|rows| - 1];
      assert forall i :: 0 <= i < |p| ==> RowIds(p)[i] == RowIds(rows)[i];
      assert rows[|rows| - 1].app == RowIds(rows)[|rows| - 1];
      TokensOfAbsent(p, id);
    }
  }

  lemma {:induction false} TotalTokensUpdate(apps: seq<AppTokenInfo>, i: nat, a: AppTokenInfo)
    requires i < |apps|
    ensures TotalTokens(apps[i := a]) == TotalTokens(apps) - |apps[i].tokens| + |a.tokens|
    decreases |apps|
  {
    var n := |apps| - 1;
    if i < n {
      TotalTokensUpdate(apps[..n], i, a);
      assert apps[i := a][..n] == apps[..n][i := a];
    } else {
      assert apps[i := a][..n] == apps[..n];
    }
  }

  /** The application ids of the grouping are pairwise distinct. */
  ghost predicate DistinctIds(apps: seq<AppTokenInfo>) {
    forall i, j :: 0 <= i < j < |apps| ==> apps[i].id != apps[j].id
  }

  /** What the grouping promises about the rows it has consumed. */
  ghost predicate Grouped(rows: seq<TokenRow>, g: seq<AppTokenInfo>) {
    && Ids(g) == Dedup(RowIds(rows))
    && DistinctIds(g)
    && (forall i :: 0 <= i < |g| ==> g[i].tokens == TokensOf(rows, g[i].id))
    && TotalTokens(g) == |rows|
  }

  lemma AddRowExisting(p: seq<TokenRow>, row: TokenRow, g: seq<AppTokenInfo>, i: nat)
    requires Grouped(p, g) && FindId(g, row.app) == Some(i)
    ensures Grouped(p + [row], AddRow(g, row))
  {
    var rows := p + [row];
    var g' := AddRow(g, row);
    assert rows[..|rows| - 1] == p;
    assert RowIds(rows) == RowIds(p) + [row.app];
    DedupMembers(RowIds(p));
    assert row.app in RowIds(p) by { assert Ids(g)[i] == row.app; }
    assert Ids(g') == Ids(g);
    forall j | 0 <= j < |g'|
      ensures g'[j].tokens == TokensOf(rows, g'[j].id)
    {
      if j != i {
        assert g'[j] == g[j];
      }
    }
    TotalTokensUpdate(g, i, AppTokenInfo(g[i].id, g[i].tokens + [row.token]));
  }

  lemma AddRowNew(p: seq<TokenRow>, row: TokenRow, g: seq<AppTokenInfo>)
    requires Grouped(p, g) && FindId(g, row.app).None?
    ensures Grouped(p + [row], AddRow(g, row))
  {
    var rows := p + [row];
    var g' := g + [AppTokenInfo(row.app, [row.token])];
    assert AddRow(g, row) == g';
    assert row.app !in RowIds(p) by {
      DedupMembers(RowIds(p));
      assert row.app !in Ids(g);
    }
    assert Ids(g') == Dedup(RowIds(rows)) by {
      assert RowIds(rows) == RowIds(p) + [row.app];
      assert RowIds(rows)[..|rows| - 1] == RowIds(p);
      assert Ids(g') == Ids(g) + [row.app];
    }
    assert DistinctIds(g') by {
      forall j | 0 <= j < |g|
        ensures g[j].id != row.app
      {
        assert Ids(g)[j] == g[j].id;
        assert g[j].id in Dedup(RowIds(p));
        DedupMembers(RowIds(p));
      }
    }
    assert rows[..|rows| - 1] == p;
    TokensOfAbsent(p, row.app);
    forall j | 0 <= j < |g'|
      ensures g'[j].tokens == TokensOf(rows, g'[j].id)
    {
      if j < |g| {
        assert g'[j] == g[j];
        assert g[j].id != row.app by {
          assert Ids(g)[j] == g[j].id;
          DedupMembers(RowIds(p));
        }
      }
    }
    assert TotalTokens(g') == |rows| by {
      assert g'[..|g|] == g;
    }
  }

  /** Grouping the token table yields one application per distinct id, in
      order of first appearance, each holding exactly the tokens of its
      rows in row order, and as many tokens in all as there are rows. */
  lemma {:induction false} GroupTokensSpec(rows: seq<TokenRow>)
    ensures Ids(GroupTokens(rows)) == Dedup(RowIds(rows))
    ensures DistinctIds(GroupTokens(rows))
    ensures forall i :: 0 <= i < |GroupTokens(rows)| ==>
      GroupTokens(rows)[i].tokens == TokensOf(rows, GroupTokens(rows)[i].id)
    ensures TotalTokens(GroupTokens(rows)) == |rows|
    decreases |rows|
  {
    if |rows| > 0 {
      var p := rows[..|rows| - 1];
      var row := rows[|rows| - 1];
      assert rows == p + [row];
      GroupTokensSpec(p);
      var g := GroupTokens(p);
      match FindId(g, row.app)
      case Some(i) => AddRowExisting(p, row, g, i);
      case None => AddRowNew(p, row, g);
    }
  }

  /** The start-up errors of `_validateTokens`. */
  datatype StartupError = PoolRefused | NoTokens | NoProfiles

  /** `_validateTokens` once the table is read: group the rows into
      applications and build the pool. An empty table is refused by the
      pool constructor; the later "No tokens" check can never fire. */
  function ValidateTokens(rows: seq<TokenRow>): (r: Result<seq<App>, StartupError>)
    ensures r.Failure? <==> |rows| == 0
    ensures r.Failure? ==> r.error == PoolRefused
    ensures r.Success? ==> |r.value| == |Dedup(RowIds(rows))|
    ensures r.Success? ==> forall i :: 0 <= i < |r.value| ==>
      r.value[i].id == Dedup(RowIds(rows))[i] && r.value[i].tokens == TokensOf(rows, r.value[i].id)
    ensures r.Success? ==> forall i, k: Kind :: 0 <= i < |r.value| ==> ResetTime(r.value[i], k).None?
  {
    GroupTokensSpec(rows);
    var apps := GroupTokens(rows);
    assert |rows| > 0 ==> |apps| > 0 && |apps[0].tokens| > 0 by {
      if |rows| > 0 {
        DedupMembers(RowIds(rows));
        assert RowIds(rows)[0] in Dedup(RowIds(rows));
        assert |apps[0].tokens| > 0 by {
          assert apps[0].id in Dedup(RowIds(rows)) by { assert Ids(apps)[0] == apps[0].id; }
          TokensOfNonEmpty(rows, apps[0].id);
        }
      }
    }
    match NewPool(apps)
    case Failure(_) => Failure(PoolRefused)
    case Success(pool) =>
      if |pool| == 0 then Failure(NoTokens) else Success(pool)
  }

  lemma {:induction false} TokensOfNonEmpty(rows: seq<TokenRow>, id: string)
    requires id in Dedup(RowIds(rows))
    ensures |TokensOf(rows, id)| > 0
    decreases |rows|
  {
    DedupMembers(RowIds(rows));
    var p := rows[..|rows| - 1];
    assert RowIds(rows) == RowIds(p) + [rows[|rows| - 1].app];
    if rows[|rows| - 1].app != id {
      DedupMembers(RowIds(p));
      TokensOfNonEmpty(p, id);
    }
  }

  /** The number of truthy (non-empty) usernames. */
  function TruthyCount(profiles: seq<string>): (n: nat)
    ensures n == 0 <==> forall i :: 0 <= i < |profiles| ==> !Truthy(profiles[i])
  {
    if |profiles| == 0 then 0
    else (if Truthy(profiles[0]) then 1 else 0) + TruthyCount(profiles[1..])
  }

  /** The emptiness check of `_validateProfiles`: refused exactly when no
      username is truthy; empty usernames are kept in the list. */
  function ValidateProfiles(profiles: seq<string>): (r: Result<seq<string>, StartupError>)
    ensures r.Failure? <==> forall i :: 0 <= i < |profiles| ==> profiles[i] == ""
    ensures r.Success? ==> r.value == profiles
  {
    if TruthyCount(profiles) == 0 then Failure(NoProfiles) else Success(profiles)
  }
}

=== FILE: resume_store.dfy ===
/** The per-user resume record (`IUserData`) and the in-memory cache
    (`Downloader._userData`) it lives in: the key-wise merge of
    `updateUserData`, the cursor and count update of
    `handlePaginationToken`, and the cache-first lookup of `getUserData`.
    Writing the merged record to its JSON file is left out; the file that
    `getUserData` may read and the remote profile lookup are inputs. */
module ResumeStore {
  import opened Types

  /** A stored pagination value: `Absent` is `undefined` (no page fetched
      yet), `Next(t)` a cursor for the next page, `Null` an exhausted
      timeline (explicit `null`). */
  datatype Cursor = Absent | Next(token: string) | Null

  /** `IUserData`. `protected` is read by the workers but not declared by
      the interface; `None` stands for the field being absent. */
  datatype UserData = UserData(
    id: string,
    username: string,
    pagination: map<Kind, Cursor>,
    count: map<string, int>,
    done: map<Kind, int>,
    protected: Option<bool>)

  /** `Partial<IUserData>`: every top-level field may be absent (`None`). */
  datatype Patch = Patch(
    id: Option<string>,
    username: Option<string>,
    pagination: Option<map<Kind, Cursor>>,
    count: Option<map<string, int>>,
    done: Option<map<Kind, int>>,
    protected: Option<bool>)

  type Cache = map<string, UserData>

  /** `userData.pagination[k]`. */
  function CursorOf(u: UserData, k: Kind): Cursor {
    if k in u.pagination then u.pagination[k] else Absent
  }

  /** `userData.done[k]`, with an absent count read as 0. */
  function DoneOf(u: UserData, k: Kind): int {
    if k in u.done then u.done[k] else 0
  }

  /** A whole record passed where a partial one is expected. */
  function AsPatch(u: UserData): (p: Patch)
    ensures Complete(p)
  {
    Patch(Some(u.id), Some(u.username), Some(u.pagination), Some(u.count), Some(u.done), u.protected)
  }

  /** A partial record that carries every field `IUserData` requires. */
  predicate Complete(p: Patch) {
    p.id.Some? && p.username.Some? && p.count.Some? && p.done.Some?
  }

  /** The object `updateUserData` stores, built by spreading the old
      record and then the patch: fields present in the patch replace the
      old ones wholesale, absent fields keep their old value, and the
      pagination map alone is merged key by key. */
  function Merge(actual: Option<UserData>, p: Patch): (r: UserData)
    requires actual.Some? || Complete(p)
    ensures forall k: Kind :: p.pagination.Some? && k in p.pagination.value ==>
      CursorOf(r, k) == p.pagination.value[k]
    ensures forall k: Kind :: (p.pagination.None? || k !in p.pagination.value) ==>
      CursorOf(r, k) == (if actual.Some? then CursorOf(actual.value, k) else Absent)
    ensures p.done.Some? ==> r.done == p.done.value
    ensures p.done.None? ==> r.done == actual.value.done
    ensures p.count.Some? ==> r.count == p.count.value
    ensures p.count.None? ==> r.count == actual.value.count
    ensures r.id == if p.id.Some? then p.id.value else actual.value.id
    ensures r.username == if p.username.Some? then p.username.value else actual.value.username
    ensures r.protected == if p.protected.Some? || actual.None? then p.protected else actual.value.protected
  {
    match actual
    case Some(a) =>
      UserData(
        p.id.GetOr(a.id),
        p.username.GetOr(a.username),
        a.pagination + p.pagination.GetOr(map[]),
        p.count.GetOr(a.count),
        p.done.GetOr(a.done),
        if p.protected.Some? then p.protected else a.protected)
    case None =>
      UserData(p.id.value, p.username.value, p.pagination.GetOr(map[]), p.count.value, p.done.value, p.protected)
  }

  /** The cached record for `username`, if any. */
  function Cached(cache: Cache, username: string): Option<UserData> {
    if username in cache then Some(cache[username]) else None
  }

  /** `updateUserData(username, partial)` on the in-memory cache: only the
      entry for `username` changes, and it becomes the merge of the cached
      record with the patch. On a cache miss the spread of `undefined`
      contributes nothing, so the patch must then carry every field. */
  function UpdateUserData(cache: Cache, username: string, p: Patch): (r: Cache)
    requires username in cache || Complete(p)
    ensures r.Keys == cache.Keys + {username}
    ensures r[username] == Merge(Cached(cache, username), p)
    ensures forall u :: u in cache && u != username ==> r[u] == cache[u]
  {
    cache[username := Merge(Cached(cache, username), p)]
  }

  /** Applying the same patch twice leaves the same record as applying it
      once: the merge is idempotent. */
  lemma MergeIdempotent(actual: Option<UserData>, p: Patch)
    requires actual.Some? || Complete(p)
    ensures Merge(Some(Merge(actual, p)), p) == Merge(actual, p)
  {
    var once := Merge(actual, p);
    var twice := Merge(Some(once), p);
    assert twice.pagination == once.pagination;
  }

  /** Replaying `updateUserData` with the same partial record gives the
      same cache as a single call. */
  lemma UpdateIdempotent(cache: Cache, username: string, p: Patch)
    requires username in cache || Complete(p)
    ensures UpdateUserData(UpdateUserData(cache, username, p), username, p) == UpdateUserData(cache, username, p)
  {
    MergeIdempotent(Cached(cache, username), p);
  }

  /** Patches that touch the cursors of different kinds commute on the
      pagination map: neither overwrites the other's cursor, whichever
      lands first. The program's own callers pass whole records, whose
      pagination maps overlap, so this does not cover them; their
      cross-kind guarantee is `PageLeavesOtherKinds`. */
  lemma MergeCommutesOnDisjointCursors(a: UserData, p: Patch, q: Patch, k: Kind)
    requires p.pagination.Some? && q.pagination.Some?
    requires p.pagination.value.Keys !! q.pagination.value.Keys
    ensures CursorOf(Merge(Some(Merge(Some(a), p)), q), k) == CursorOf(Merge(Some(Merge(Some(a), q)), p), k)
  {
  }

  /** `handlePaginationToken(key, userData, nextToken, resultCount)`: the
      record with its cursor for `k` and its count for `k` updated. A
      truthy next token becomes the cursor; a missing or empty one marks
      the timeline exhausted with an explicit `null`. The count for `k`
      grows by `resultCount` from its previous value (0 if absent). Every
      other kind is left as it was. */
  function NextRecord(u: UserData, k: Kind, nextToken: Option<string>, resultCount: int): (r: UserData)
    ensures CursorOf(r, k) == (if TruthyOpt(nextToken) then Next(nextToken.value) else Null)
    ensures DoneOf(r, k) == DoneOf(u, k) + resultCount
    ensures forall k': Kind :: k' != k ==> CursorOf(r, k') == CursorOf(u, k') && DoneOf(r, k') == DoneOf(u, k')
    ensures r.id == u.id && r.username == u.username && r.count == u.count && r.protected == u.protected
  {
    var pagination :=
      if TruthyOpt(nextToken) then
        (if CursorOf(u, k) != Next(nextToken.value) then u.pagination[k := Next(nextToken.value)] else u.pagination)
      else if CursorOf(u, k) != Null then u.pagination[k := Null]
      else u.pagination;
    var done :=
      if k in u.done && u.done[k] != 0 then u.done[k := u.done[k] + resultCount]
      else u.done[k := resultCount];
    u.(pagination := pagination, done := done)
  }

  /** `handlePaginationToken` as a whole: the updated record, and the cache
      after `updateUserData(userData.username, userData)`. */
  function HandlePaginationToken(cache: Cache, u: UserData, k: Kind, nextToken: Option<string>, resultCount: int): (r: (UserData, Cache))
    ensures r.0 == NextRecord(u, k, nextToken, resultCount)
    ensures u.username in r.1
    ensures r.1[u.username] == Merge(Cached(cache, u.username), AsPatch(r.0))
    ensures CursorOf(r.1[u.username], k) == CursorOf(r.0, k)
    ensures DoneOf(r.1[u.username], k) == DoneOf(u, k) + resultCount
    ensures forall v :: v in cache && v != u.username ==> v in r.1 && r.1[v] == cache[v]
    ensures r.1.Keys == cache.Keys + {u.username}
  {
    var next := NextRecord(u, k, nextToken, resultCount);
    (next, UpdateUserData(cache, u.username, AsPatch(next)))
  }

  /** When the cache holds the very record being advanced (or nothing for
      that user), the cached entry afterwards is exactly the advanced
      record: a page of one kind leaves the cursors and counts of every
      other kind, and every other field, as they were. */
  lemma PageLeavesOtherKinds(cache: Cache, u: UserData, k: Kind, nextToken: Option<string>, resultCount: int)
    requires u.username in cache ==> cache[u.username] == u
    ensures var c := HandlePaginationToken(cache, u, k, nextToken, resultCount).1[u.username];
      c == NextRecord(u, k, nextToken, resultCount) &&
      c.id == u.id && c.count == u.count && c.protected == u.protected &&
      forall k': Kind :: k' != k ==> CursorOf(c, k') == CursorOf(u, k') && DoneOf(c, k') == DoneOf(u, k')
  {
    var next := NextRecord(u, k, nextToken, resultCount);
    if u.username in cache {
      assert u.pagination + next.pagination == next.pagination;
    }
  }

  /** `public_metrics` of a user profile. */
  datatype Metrics = Metrics(tweetCount: int, followersCount: int, followingCount: int, listedCount: int)

  /** The remote profile lookup: the user id and, when returned, its metrics. */
  datatype Profile = Profile(id: string, metrics: Option<Metrics>)

  /** Where `getUserData` found the record. */
  datatype Origin = FromCache | FromFile | FromRemote

  datatype Lookup = Lookup(record: UserData, cache: Cache, origin: Origin)

  /** The remote lookup threw (unknown user, network failure, ...). */
  datatype LookupError = RemoteLookupFailed

  /** The record `getUserData` creates from a remote profile: empty
      pagination and counts, profile counts defaulting to 0. */
  function FreshRecord(username: string, profile: Profile): (u: UserData)
    ensures u.id == profile.id && u.username == username
    ensures forall k: Kind :: CursorOf(u, k) == Absent && DoneOf(u, k) == 0
    ensures u.count.Keys == {"tweets", "followers", "followings", "listed"}
    ensures profile.metrics.None? ==> forall c :: c in u.count ==> u.count[c] == 0
    ensures profile.metrics.Some? ==>
      u.count["tweets"] == profile.metrics.value.tweetCount &&
      u.count["followers"] == profile.metrics.value.followersCount &&
      u.count["followings"] == profile.metrics.value.followingCount &&
      u.count["listed"] == profile.metrics.value.listedCount
    ensures u.protected.None?
  {
    var m := profile.metrics;
    UserData(
      profile.id,
      username,
      map[],
      map[
        "tweets" := if m.Some? then m.value.tweetCount else 0,
        "followers" := if m.Some? then m.value.followersCount else 0,
        "followings" := if m.Some? then m.value.followingCount else 0,
        "listed" := if m.Some? then m.value.listedCount else 0],
      map[],
      None)
  }

  /** `getUserData(username)`: a cached record is returned as is, without a
      remote lookup; otherwise a readable JSON file is returned without
      being cached; otherwise the remote lookup seeds a fresh record, which
      is cached. A failing remote lookup propagates. */
  function GetUserData(cache: Cache, username: string, file: Option<UserData>, remote: Option<Profile>): (r: Result<Lookup, LookupError>)
    ensures username in cache ==> r == Success(Lookup(cache[username], cache, FromCache))
    ensures username !in cache && file.Some? ==> r == Success(Lookup(file.value, cache, FromFile))
    ensures r.Failure? <==> username !in cache && file.None? && remote.None?
    ensures username !in cache && file.None? && remote.Some? ==>
      r == Success(Lookup(FreshRecord(username, remote.value),
                          cache[username := FreshRecord(username, remote.value)], FromRemote))
    ensures r.Success? && r.value.origin == FromRemote ==>
      username !in cache && file.None? &&
      r.value.record == FreshRecord(username, remote.value) &&
      r.value.cache == cache[username := r.value.record]
  {
    if username in cache then Success(Lookup(cache[username], cache, FromCache))
    else if file.Some? then Success(Lookup(file.value, cache, FromFile))
    else match remote
      case None => Failure(RemoteLookupFailed)
      case Some(profile) =>
        var u := FreshRecord(username, profile);
        Success(Lookup(u, UpdateUserData(cache, username, AsPatch(u)), FromRemote))
  }
}

=== FILE: social_distance.dfy ===
/** `NormalizedSocialDistance`: the symmetric key of a pair of profiles,
    the enumeration of every unordered pair of the profile list, and the
    layout of the square distance matrix written as CSV. The distance
    itself is floating-point arithmetic on logarithms; the model keeps
    the three counts it is computed from (`Inputs`) and leaves its
    rendering to a parameter. */
module SocialDistance {
  import opened Types
  import Csv
  import Data

  /** `Record<string, string[]>`: the related users of each profile. */
  type UserMap = map<string, seq<Option<string>>>

  /** The arguments of `_calculateNormalizedSocialDistance(fx, fy, fi)`. */
  datatype Inputs = Inputs(fx: nat, fy: nat, fi: nat)

  /** `_getUsernameKey`: the two names sorted with the collation of the
      runtime and joined by a dash. The collation is a parameter:
      `less(x, y)` holds when x collates strictly before y.
      Sorting two elements asks the comparator whether `b` belongs before
      `a`; it moves ahead only when it compares strictly lower, so the key
      is the pair in ascending order, and names that tie keep their order. */
  function UsernameKey(a: string, b: string, less: (string, string) -> bool): string {
    if less(b, a) then b + "-" + a else a + "-" + b
  }

  /** The key is one of the two joins: the pair in ascending order, and
      names that tie in their given order. */
  lemma UsernameKeyOrder(a: string, b: string, less: (string, string) -> bool)
    ensures UsernameKey(a, b, less) == a + "-" + b || UsernameKey(a, b, less) == b + "-" + a
    ensures less(a, b) && !less(b, a) ==> UsernameKey(a, b, less) == a + "-" + b
    ensures less(b, a) && !less(a, b) ==> UsernameKey(a, b, less) == b + "-" + a
    ensures !less(a, b) && !less(b, a) ==> UsernameKey(a, b, less) == a + "-" + b
  {
  }

  /** The comparator orders every two distinct names of `names` one way
      round: `localeCompare` returns 0 only for names that collate alike. */
  predicate TotalOn(names: seq<string>, less: (string, string) -> bool) {
    forall i, j :: 0 <= i < |names| && 0 <= j < |names| && names[i] != names[j] ==>
      less(names[i], names[j]) != less(names[j], names[i])
  }

  predicate NoDash(s: string) {
    '-' !in s
  }

  predicate Distinct(names: seq<string>) {
    forall i, j :: 0 <= i < j < |names| ==> names[i] != names[j]
  }

  /** The key does not depend on the order of the two names, as long as
      the comparator separates them. */
  lemma UsernameKeySymmetric(a: string, b: string, less: (string, string) -> bool)
    requires a == b || less(a, b) != less(b, a)
    ensures UsernameKey(a, b, less) == UsernameKey(b, a, less)
  {
  }

  /** The position of the first dash in `s`, or its length. */
  function FirstDash(s: string): (n: nat)
    ensures n <= |s|
  {
    if |s| == 0 || s[0] == '-' then 0 else 1 + FirstDash(s[1..])
  }

  lemma {:induction false} FirstDashOfJoin(x: string, y: string)
    requires NoDash(x)
    ensures FirstDash(x + "-" + y) == |x|
    decreases |x|
  {
    if |x| > 0 {
      FirstDashOfJoin(x[1..], y);
      assert (x + "-" + y)[1..] == x[1..] + "-" + y;
    }
  }

  /** Joining with a dash is injective on names without a dash. */
  lemma JoinInjective(x: string, y: string, z: string, w: string)
    requires NoDash(x) && NoDash(y) && NoDash(z) && NoDash(w)
    requires x + "-" + y == z + "-" + w
    ensures x == z && y == w
  {
    var s := x + "-" + y;
    FirstDashOfJoin(x, y);
    FirstDashOfJoin(z, w);
    assert x == s[..|x|] && z == (z + "-" + w)[..|z|];
    assert y == s[|x| + 1..] && w == (z + "-" + w)[|z| + 1..];
  }

  /** Two distinct names without a dash that collate alike get two
      different keys, one per order. */
  lemma TiedNamesAreNotSymmetric(a: string, b: string, less: (string, string) -> bool)
    requires a != b && !less(a, b) && !less(b, a)
    requires NoDash(a) && NoDash(b)
    ensures UsernameKey(a, b, less) != UsernameKey(b, a, less)
  {
    if UsernameKey(a, b, less) == UsernameKey(b, a, less) {
      JoinInjective(a, b, b, a);
    }
  }

  /** For names without a dash, the key determines the unordered pair. */
  lemma KeyDeterminesPair(a: string, b: string, c: string, d: string, less: (string, string) -> bool)
    requires NoDash(a) && NoDash(b) && NoDash(c) && NoDash(d)
    requires UsernameKey(a, b, less) == UsernameKey(c, d, less)
    ensures (a == c && b == d) || (a == d && b == c)
  {
    var k := UsernameKey(a, b, less);
    if k == a + "-" + b {
      if k == c + "-" + d { JoinInjective(a, b, c, d); } else { JoinInjective(a, b, d, c); }
    } else {
      if k == c + "-" + d { JoinInjective(b, a, c, d); } else { JoinInjective(b, a, d, c); }
    }
  }

  /** Names holding a dash can share a key: "a-b" with "c" and "a" with
      "b-c" both give "a-b-c" when each pair is already in order. */
  lemma DashedNamesCollide(less: (string, string) -> bool)
    requires !less("c", "a-b") && !less("b-c", "a")
    ensures UsernameKey("a-b", "c", less) == UsernameKey("a", "b-c", less)
  {
    assert "a-b" + "-" + "c" == "a" + "-" + "b-c";
  }

  /** The distinct values of a list. */
  function Elems(xs: seq<Option<string>>): set<Option<string>> {
    set x | x in xs
  }

  lemma {:induction false} ElemsBound(xs: seq<Option<string>>)
    ensures |Elems(xs)| <= |xs|
    decreases |xs|
  {
    if |xs| > 0 {
      ElemsBound(xs[1..]);
      assert Elems(xs) == {xs[0]} + Elems(xs[1..]);
    }
  }

  /** The inputs for the pair (x, y): `fx` and `fy` are the lengths of the
      mapped lists (0 when a name has none), `fi` the number of distinct
      values the two lists share (lodash `intersection`). Shared values
      are counted once, so `fi` never exceeds either length. */
  function PairInputs(m: UserMap, x: string, y: string): (r: Inputs)
    ensures r.fx == |Data.Lookup(m, x)| && r.fy == |Data.Lookup(m, y)|
    ensures r.fi == |set v | v in Data.Lookup(m, x) && v in Data.Lookup(m, y)|
    ensures r.fi <= r.fx && r.fi <= r.fy
    ensures x == y ==> r.fi == |Elems(Data.Lookup(m, x))|
  {
    var xs := Data.Lookup(m, x);
    var ys := Data.Lookup(m, y);
    assert Elems(xs) * Elems(ys) == set v | v in xs && v in ys;
    ElemsBound(xs);
    ElemsBound(ys);
    assert Elems(xs) * Elems(ys) <= Elems(xs);
    assert Elems(xs) * Elems(ys) <= Elems(ys);
    SubsetCard(Elems(xs) * Elems(ys), Elems(xs));
    SubsetCard(Elems(xs) * Elems(ys), Elems(ys));
    assert x == y ==> Elems(xs) * Elems(ys) == Elems(xs);
    Inputs(|xs|, |ys|, |Elems(xs) * Elems(ys)|)
  }

  lemma SubsetCard(a: set<Option<string>>, b: set<Option<string>>)
    requires a <= b
    ensures |a| <= |b|
  {
    assert b == a + (b - a);
  }

  /** Exchanging the two names exchanges `fx` and `fy` and keeps `fi`: the
      distance formula, symmetric in `fx` and `fy`, gives the same value. */
  lemma PairInputsSwap(m: UserMap, x: string, y: string)
    ensures PairInputs(m, y, x) == Inputs(PairInputs(m, x, y).fy, PairInputs(m, x, y).fx, PairInputs(m, x, y).fi)
  {
    assert Elems(Data.Lookup(m, y)) * Elems(Data.Lookup(m, x)) == Elems(Data.Lookup(m, x)) * Elems(Data.Lookup(m, y));
  }

  /** The inner loop of `_calculateDistances`: the entries of `x` paired
      with every later name, written in order. */
  function PairRow(m: UserMap, x: string, rest: seq<string>, less: (string, string) -> bool, d: map<string, Inputs>): map<string, Inputs>
    decreases |rest|
  {
    if |rest| == 0 then d
    else PairRow(m, x, rest[1..], less, d[UsernameKey(x, rest[0], less) := PairInputs(m, x, rest[0])])
  }

  /** The outer loop: take the first name off the list, pair it with the
      names that remain, repeat until the list is empty. */
  function PairAll(m: UserMap, profiles: seq<string>, less: (string, string) -> bool, d: map<string, Inputs>): map<string, Inputs>
    decreases |profiles|
  {
    if |profiles| == 0 then d
    else PairAll(m, profiles[1..], less, PairRow(m, profiles[0], profiles[1..], less, d))
  }

  /** `_calculateDistances(map, usernames)`. */
  function CalculateDistances(m: UserMap, usernames: seq<string>, less: (string, string) -> bool): map<string, Inputs> {
    PairAll(m, usernames, less, map[])
  }

  lemma {:induction false} PairRowKeys(m: UserMap, x: string, rest: seq<string>, less: (string, string) -> bool, d: map<string, Inputs>, key: string)
    ensures key in PairRow(m, x, rest, less, d) <==>
      key in d || exists j :: 0 <= j < |rest| && key == UsernameKey(x, rest[j], less)
    decreases |rest|
  {
    if |rest| > 0 {
      var d' := d[UsernameKey(x, rest[0], less) := PairInputs(m, x, rest[0])];
      PairRowKeys(m, x, rest[1..], less, d', key);
      if exists j :: 0 <= j < |rest[1..]| && key == UsernameKey(x, rest[1..][j], less) {
        var j :| 0 <= j < |rest[1..]| && key == UsernameKey(x, rest[1..][j], less);
        assert rest[1..][j] == rest[j + 1];
      }
      if exists j :: 0 <= j < |rest| && key == UsernameKey(x, rest[j], less) {
        var j :| 0 <= j < |rest| && key == UsernameKey(x, rest[j], less);
        if j > 0 {
          assert rest[1..][j - 1] == rest[j];
        }
      }
    }
  }

  /** The pairs of positions of a non-empty list: the first name with a
      later one, or two positions of the tail. */
  lemma PairKeySplit(names: seq<string>, less: (string, string) -> bool, key: string)
    requires |names| > 0
    ensures (exists i, j :: 0 <= i < j < |names| && key == UsernameKey(names[i], names[j], less)) <==>
      (exists j :: 0 <= j < |names[1..]| && key == UsernameKey(names[0], names[1..][j], less)) ||
      (exists i, j :: 0 <= i < j < |names[1..]| && key == UsernameKey(names[1..][i], names[1..][j], less))
  {
    var rest := names[1..];
    if exists i, j :: 0 <= i < j < |rest| && key == UsernameKey(rest[i], rest[j], less) {
      var i, j :| 0 <= i < j < |rest| && key == UsernameKey(rest[i], rest[j], less);
      assert rest[i] == names[i + 1] && rest[j] == names[j + 1];
    }
    if exists j :: 0 <= j < |rest| && key == UsernameKey(names[0], rest[j], less) {
      var j :| 0 <= j < |rest| && key == UsernameKey(names[0], rest[j], less);
      assert rest[j] == names[j + 1];
    }
    if exists i, j :: 0 <= i < j < |names| && key == UsernameKey(names[i], names[j], less) {
      var i, j :| 0 <= i < j < |names| && key == UsernameKey(names[i], names[j], less);
      if i == 0 {
        assert names[j] == rest[j - 1];
      } else {
        assert names[i] == rest[i - 1] && names[j] == rest[j - 1];
      }
    }
  }

  /** Keys written by the outer loop: exactly the keys of the pairs of
      positions i < j, plus whatever was there before. */
  lemma {:induction false} PairAllKeys(m: UserMap, names: seq<string>, less: (string, string) -> bool, d: map<string, Inputs>, key: string)
    ensures key in PairAll(m, names, less, d) <==>
      key in d || exists i, j :: 0 <= i < j < |names| && key == UsernameKey(names[i], names[j], less)
    decreases |names|
  {
    if |names| > 0 {
      var rest := names[1..];
      PairAllKeys(m, rest, less, PairRow(m, names[0], rest, less, d), key);
      PairRowKeys(m, names[0], rest, less, d, key);
      PairKeySplit(names, less, key);
    }
  }

  /** `_calculateDistances` holds an entry for the pair of every two
      positions i < j of the list, and no other entry. */
  lemma CalculateDistancesKeys(m: UserMap, names: seq<string>, less: (string, string) -> bool, key: string)
    ensures key in CalculateDistances(m, names, less) <==>
      exists i, j :: 0 <= i < j < |names| && key == UsernameKey(names[i], names[j], less)
  {
    PairAllKeys(m, names, less, map[], key);
  }

  lemma {:induction false} PairRowValue(m: UserMap, x: string, rest: seq<string>, less: (string, string) -> bool, d: map<string, Inputs>, key: string, v: Inputs)
    requires key in d ==> d[key] == v
    requires forall j :: 0 <= j < |rest| && UsernameKey(x, rest[j], less) == key ==> PairInputs(m, x, rest[j]) == v
    ensures key in PairRow(m, x, rest, less, d) ==> PairRow(m, x, rest, less, d)[key] == v
    decreases |rest|
  {
    if |rest| > 0 {
      var d' := d[UsernameKey(x, rest[0], less) := PairInputs(m, x, rest[0])];
      forall j | 0 <= j < |rest[1..]| && UsernameKey(x, rest[1..][j], less) == key
        ensures PairInputs(m, x, rest[1..][j]) == v
      {
        assert rest[1..][j] == rest[j + 1];
      }
      PairRowValue(m, x, rest[1..], less, d', key, v);
    }
  }

  /** Whatever entry the loops leave under `key` is one written for a pair
      with that key, or the entry there before: if all of those agree on
      `v`, the result does too. */
  lemma {:induction false} PairAllValue(m: UserMap, names: seq<string>, less: (string, string) -> bool, d: map<string, Inputs>, key: string, v: Inputs)
    requires key in d ==> d[key] == v
    requires forall i, j :: 0 <= i < j < |names| && UsernameKey(names[i], names[j], less) == key ==>
      PairInputs(m, names[i], names[j]) == v
    ensures key in PairAll(m, names, less, d) ==> PairAll(m, names, less, d)[key] == v
    decreases |names|
  {
    if |names| > 0 {
      var rest := names[1..];
      forall j | 0 <= j < |rest| && UsernameKey(names[0], rest[j], less) == key
        ensures PairInputs(m, names[0], rest[j]) == v
      {
        assert rest[j] == names[j + 1];
      }
      PairRowValue(m, names[0], rest, less, d, key, v);
      forall i, j | 0 <= i < j < |rest| && UsernameKey(rest[i], rest[j], less) == key
        ensures PairInputs(m, rest[i], rest[j]) == v
      {
        assert rest[i] == names[i + 1] && rest[j] == names[j + 1];
      }
      PairAllValue(m, rest, less, PairRow(m, names[0], rest, less, d), key, v);
    }
  }

  /** For a list of distinct names without a dash, the entry of the pair at
      positions i < j holds exactly that pair's inputs: no other pair
      writes to its key. */
  lemma DistancesExact(m: UserMap, names: seq<string>, less: (string, string) -> bool, i: nat, j: nat)
    requires i < j < |names|
    requires Distinct(names)
    requires forall k :: 0 <= k < |names| ==> NoDash(names[k])
    ensures UsernameKey(names[i], names[j], less) in CalculateDistances(m, names, less)
    ensures CalculateDistances(m, names, less)[UsernameKey(names[i], names[j], less)] == PairInputs(m, names[i], names[j])
  {
    var key := UsernameKey(names[i], names[j], less);
    CalculateDistancesKeys(m, names, less, key);
    forall a, b | 0 <= a < b < |names| && UsernameKey(names[a], names[b], less) == key
      ensures PairInputs(m, names[a], names[b]) == PairInputs(m, names[i], names[j])
    {
      KeyDeterminesPair(names[a], names[b], names[i], names[j], less);
      assert a == i && b == j;
    }
    PairAllValue(m, names, less, map[], key, PairInputs(m, names[i], names[j]));
  }

  /** A name is never paired with itself: for distinct names without a
      dash there is no entry under the key of a name with itself. */
  lemma NoSelfPair(m: UserMap, names: seq<string>, less: (string, string) -> bool, i: nat)
    requires i < |names|
    requires Distinct(names)
    requires forall k :: 0 <= k < |names| ==> NoDash(names[k])
    ensures UsernameKey(names[i], names[i], less) !in CalculateDistances(m, names, less)
  {
    var key := UsernameKey(names[i], names[i], less);
    CalculateDistancesKeys(m, names, less, key);
    if key in CalculateDistances(m, names, less) {
      var a, b :| 0 <= a < b < |names| && key == UsernameKey(names[a], names[b], less);
      KeyDeterminesPair(names[a], names[b], names[i], names[i], less);
      assert false;
    }
  }

  /** A cell of the distance matrix before it is rendered: the empty
      corner and diagonal, a profile name, or a distance lookup whose
      entry may be missing (`undefined`). */
  datatype Entry = Blank | Label(name: string) | Distance(value: Option<Inputs>)

  function Get(d: map<string, Inputs>, key: string): Option<Inputs> {
    if key in d then Some(d[key]) else None
  }

  /** The matrix cell of `profile` against `p`: blank when they are the
      same name, otherwise the lookup of their pair key. */
  function MatrixCell(d: map<string, Inputs>, profile: string, p: string, less: (string, string) -> bool): Entry {
    if profile == p then Blank else Distance(Get(d, UsernameKey(profile, p, less)))
  }

  /** Cell (i, j) of the matrix `_save` lays out, row 0 being the header
      and column 0 the profile names: an empty corner, the names along
      the top and down the side, and the cell of row profile i - 1
      against column profile j - 1 everywhere else. */
  function MatrixAt(d: map<string, Inputs>, names: seq<string>, less: (string, string) -> bool, i: nat, j: nat): Entry
    requires i <= |names| && j <= |names|
  {
    if i == 0 then (if j == 0 then Blank else Label(names[j - 1]))
    else if j == 0 then Label(names[i - 1])
    else MatrixCell(d, names[i - 1], names[j - 1], less)
  }

  /** The layout: an empty corner, the names along the top and down the
      side, and a blank inner cell exactly where the row's and the
      column's names agree. */
  lemma MatrixLayout(d: map<string, Inputs>, names: seq<string>, less: (string, string) -> bool, i: nat, j: nat)
    requires i <= |names| && j <= |names|
    ensures i == 0 && j == 0 ==> MatrixAt(d, names, less, i, j) == Blank
    ensures i == 0 && j > 0 ==> MatrixAt(d, names, less, i, j) == Label(names[j - 1])
    ensures i > 0 && j == 0 ==> MatrixAt(d, names, less, i, j) == Label(names[i - 1])
    ensures i > 0 && j > 0 ==> (MatrixAt(d, names, less, i, j) == Blank <==> names[i - 1] == names[j - 1])
  {
  }

  /** The whole matrix: n + 1 rows of n + 1 cells. */
  function Matrix(d: map<string, Inputs>, names: seq<string>, less: (string, string) -> bool): (rows: seq<seq<Entry>>)
    ensures |rows| == |names| + 1
    ensures forall i :: 0 <= i < |rows| ==> |rows[i]| == |names| + 1
    ensures forall i, j :: 0 <= i <= |names| && 0 <= j <= |names| ==> rows[i][j] == MatrixAt(d, names, less, i, j)
  {
    seq(|names| + 1, i requires 0 <= i <= |names| =>
      seq(|names| + 1, j requires 0 <= j <= |names| => MatrixAt(d, names, less, i, j)))
  }

  /** Cells (i, j) and (j, i) look up the same key, so the matrix is
      symmetric when the comparator orders the names. */
  lemma MatrixSymmetric(d: map<string, Inputs>, names: seq<string>, less: (string, string) -> bool, i: nat, j: nat)
    requires i < |names| && j < |names|
    requires TotalOn(names, less)
    ensures MatrixAt(d, names, less, i + 1, j + 1) == MatrixAt(d, names, less, j + 1, i + 1)
  {
    if names[i] != names[j] {
      UsernameKeySymmetric(names[i], names[j], less);
    }
  }

  /** Every two different names of the list have an entry, whichever
      comes first, when the comparator orders them. */
  lemma DistancesCover(m: UserMap, names: seq<string>, less: (string, string) -> bool, i: nat, j: nat)
    requires i < |names| && j < |names| && names[i] != names[j]
    requires TotalOn(names, less)
    ensures UsernameKey(names[i], names[j], less) in CalculateDistances(m, names, less)
  {
    var key := UsernameKey(names[i], names[j], less);
    UsernameKeySymmetric(names[i], names[j], less);
    CalculateDistancesKeys(m, names, less, key);
    if i < j {
      assert 0 <= i < j < |names| && key == UsernameKey(names[i], names[j], less);
    } else {
      assert 0 <= j < i < |names| && key == UsernameKey(names[j], names[i], less);
    }
  }

  /** Over the distances of the same list, every off-diagonal cell is
      defined, and for distinct names without a dash it holds the inputs
      of its pair, with `fx` belonging to the row's profile or, below the
      diagonal, to the column's. */
  lemma MatrixDefined(m: UserMap, names: seq<string>, less: (string, string) -> bool, i: nat, j: nat)
    requires i < |names| && j < |names| && names[i] != names[j]
    requires TotalOn(names, less)
    ensures MatrixAt(CalculateDistances(m, names, less), names, less, i + 1, j + 1).Distance?
    ensures MatrixAt(CalculateDistances(m, names, less), names, less, i + 1, j + 1).value.Some?
    ensures Distinct(names) && (forall k :: 0 <= k < |names| ==> NoDash(names[k])) ==>
      MatrixAt(CalculateDistances(m, names, less), names, less, i + 1, j + 1) ==
        Distance(Some(if i < j then PairInputs(m, names[i], names[j]) else PairInputs(m, names[j], names[i])))
  {
    DistancesCover(m, names, less, i, j);
    if Distinct(names) && (forall k :: 0 <= k < |names| ==> NoDash(names[k])) {
      UsernameKeySymmetric(names[i], names[j], less);
      if i < j { DistancesExact(m, names, less, i, j); } else { DistancesExact(m, names, less, j, i); }
    }
  }

  /** The text of a cell: `${item}` of the empty string, a name, a missing
      entry (`undefined`) or a number. How the engine prints the distance
      computed from the inputs is the parameter `show`. */
  function Render(c: Entry, show: Inputs -> string): string {
    match c
    case Blank => ""
    case Label(s) => s
    case Distance(None) => "undefined"
    case Distance(Some(v)) => show(v)
  }

  function RenderRow(cells: seq<Entry>, show: Inputs -> string): (r: seq<string>)
    ensures |r| == |cells|
    ensures forall k :: 0 <= k < |cells| ==> r[k] == Render(cells[k], show)
  {
    seq(|cells|, k requires 0 <= k < |cells| => Render(cells[k], show))
  }

  /** The rendered cells of row r of the layout. */
  function RowText(d: map<string, Inputs>, names: seq<string>, less: (string, string) -> bool, show: Inputs -> string, r: nat): seq<string>
    requires r <= |names|
  {
    seq(|names| + 1, k requires 0 <= k <= |names| => Render(MatrixAt(d, names, less, r, k), show))
  }

  /** Row r of the layout, rendered, is the rendered row r of the matrix. */
  lemma RowTextOfMatrix(d: map<string, Inputs>, names: seq<string>, less: (string, string) -> bool, show: Inputs -> string, r: nat)
    requires r <= |names|
    ensures RowText(d, names, less, show, r) == RenderRow(Matrix(d, names, less)[r], show)
  {
    var a, b := RowText(d, names, less, show, r), RenderRow(Matrix(d, names, less)[r], show);
    assert forall k :: 0 <= k < |a| ==> a[k] == b[k];
  }

  /** The text of inner cell (i + 1, j + 1): empty against the profile
      itself, otherwise the looked-up distance or `undefined`. */
  lemma InnerField(d: map<string, Inputs>, names: seq<string>, less: (string, string) -> bool, show: Inputs -> string,
                   i: nat, j: nat)
    requires i < |names| && j < |names|
    ensures Render(MatrixAt(d, names, less, i + 1, j + 1), show) ==
      if names[i] == names[j] then ""
      else if UsernameKey(names[i], names[j], less) in d then show(d[UsernameKey(names[i], names[j], less)])
      else "undefined"
  {
  }

  /** The first line's fields: an empty corner, then the names. */
  method HeaderFields(d: map<string, Inputs>, names: seq<string>, less: (string, string) -> bool, show: Inputs -> string)
    returns (header: seq<string>)
    ensures header == RowText(d, names, less, show, 0)
  {
    header := [""];
    for j := 0 to |names|
      invariant |header| == j + 1
      invariant forall k :: 0 <= k <= j ==> header[k] == Render(MatrixAt(d, names, less, 0, k), show)
    {
      ghost var prev := header;
      header := header + [names[j]];
      assert header[j + 1] == names[j];
      assert forall k :: 0 <= k <= j ==> header[k] == prev[k];
    }
    assert forall k :: 0 <= k < |header| ==> header[k] == RowText(d, names, less, show, 0)[k];
  }

  /** The loop of `_save` over the columns for profile i: its name, then
      an empty cell against itself and the looked-up distance against
      every other name, `undefined` when there is no entry. */
  method ProfileFields(d: map<string, Inputs>, names: seq<string>, less: (string, string) -> bool, show: Inputs -> string, i: nat)
    returns (rowData: seq<string>)
    requires i < |names|
    ensures |rowData| == |names| + 1
    ensures forall k :: 0 <= k <= |names| ==> rowData[k] == Render(MatrixAt(d, names, less, i + 1, k), show)
  {
    var profile := names[i];
    rowData := [profile];
    for j := 0 to |names|
      invariant |rowData| == j + 1
      invariant forall k :: 0 <= k <= j ==> rowData[k] == Render(MatrixAt(d, names, less, i + 1, k), show)
    {
      var p := names[j];
      var cell;
      if profile == p {
        cell := "";
      } else {
        var key := UsernameKey(profile, p, less);
        cell := if key in d then show(d[key]) else "undefined";
      }
      InnerField(d, names, less, show, i, j);
      ghost var prev := rowData;
      rowData := rowData + [cell];
      assert rowData[j + 1] == cell;
      assert forall k :: 0 <= k <= j ==> rowData[k] == prev[k];
    }
  }

  /** The fields of the line of profile i are row i + 1 of the layout. */
  method RowFields(d: map<string, Inputs>, names: seq<string>, less: (string, string) -> bool, show: Inputs -> string, i: nat)
    returns (rowData: seq<string>)
    requires i < |names|
    ensures rowData == RowText(d, names, less, show, i + 1)
  {
    rowData := ProfileFields(d, names, less, show, i);
    assert forall k :: 0 <= k < |rowData| ==> rowData[k] == RowText(d, names, less, show, i + 1)[k];
  }

  /** The lines `_save` writes: the CSV row of every rendered row of the
      layout, the header first. */
  function SaveLines(d: map<string, Inputs>, names: seq<string>, less: (string, string) -> bool, sep: string, show: Inputs -> string): seq<string> {
    seq(|names| + 1, r requires 0 <= r <= |names| => Csv.ToCSVRow(sep, RowText(d, names, less, show, r)))
  }

  /** The loops of `_save` that gather the fields: the header, then one
      row per profile. */
  method MatrixFields(d: map<string, Inputs>, names: seq<string>, less: (string, string) -> bool, show: Inputs -> string)
    returns (rows: seq<seq<string>>)
    ensures |rows| == |names| + 1
    ensures forall r :: 0 <= r <= |names| ==> rows[r] == RowText(d, names, less, show, r)
  {
    var header := HeaderFields(d, names, less, show);
    rows := [header];
    for i := 0 to |names|
      invariant |rows| == i + 1
      invariant forall r :: 0 <= r <= i ==> rows[r] == RowText(d, names, less, show, r)
    {
      var rowData := RowFields(d, names, less, show, i);
      ghost var prev := rows;
      rows := rows + [rowData];
      assert rows[i + 1] == rowData;
      assert forall r :: 0 <= r <= i ==> rows[r] == prev[r];
    }
  }

  /** Every gathered row written as a CSV line, in order. */
  method EncodeLines(rows: seq<seq<string>>, sep: string) returns (lines: seq<string>)
    ensures |lines| == |rows|
    ensures forall r :: 0 <= r < |rows| ==> lines[r] == Csv.ToCSVRow(sep, rows[r])
  {
    lines := [];
    for r := 0 to |rows|
      invariant |lines| == r
      invariant forall q :: 0 <= q < r ==> lines[q] == Csv.ToCSVRow(sep, rows[q])
    {
      ghost var prev := lines;
      lines := lines + [Csv.ToCSVRow(sep, rows[r])];
      assert lines[r] == Csv.ToCSVRow(sep, rows[r]);
      assert forall q :: 0 <= q < r ==> lines[q] == prev[q];
    }
  }

  /** The lines `_save` builds before writing them. */
  method MatrixLines(d: map<string, Inputs>, names: seq<string>, less: (string, string) -> bool, sep: string, show: Inputs -> string)
    returns (lines: seq<string>)
    ensures lines == SaveLines(d, names, less, sep, show)
  {
    var rows := MatrixFields(d, names, less, show);
    lines := EncodeLines(rows, sep);
    ghost var expected := SaveLines(d, names, less, sep, show);
    assert forall r :: 0 <= r < |lines| ==> lines[r] == expected[r];
  }

  /** `_save(filename, distances, usernames)` up to the file write: the
      CSV lines of the matrix, one per row. */
  method Save(d: map<string, Inputs>, names: seq<string>, less: (string, string) -> bool, sep: string, show: Inputs -> string)
    returns (lines: seq<string>)
    ensures |lines| == |names| + 1
    ensures forall i :: 0 <= i < |lines| ==>
      lines[i] == Csv.ToCSVRow(sep, RenderRow(Matrix(d, names, less)[i], show))
    ensures lines == SaveLines(d, names, less, sep, show)
  {
    lines := MatrixLines(d, names, less, sep, show);
    forall i | 0 <= i < |lines|
      ensures lines[i] == Csv.ToCSVRow(sep, RenderRow(Matrix(d, names, less)[i], show))
    {
      RowTextOfMatrix(d, names, less, show, i);
    }
  }

  /** The file body: every line followed by a newline. */
  function FileText(lines: seq<string>): (r: string)
    ensures |lines| == 0 <==> r == ""
    ensures |lines| > 0 ==> |r| > |lines[0]| && r[|r| - 1] == '\n' && r[..|lines[0]|] == lines[0]
  {
    if |lines| == 0 then "" else lines[0] + "\n" + FileText(lines[1..])
  }

  /** The length of the first line of `s`: the position of its first
      newline, or all of `s` when it has none. */
  function LineEnd(s: string): (n: nat)
    ensures n <= |s|
    ensures forall j :: 0 <= j < n ==> s[j] != '\n'
    ensures n < |s| ==> s[n] == '\n'
  {
    if |s| == 0 || s[0] == '\n' then 0 else 1 + LineEnd(s[1..])
  }

  /** A reader of the written file: splits text at its newlines, each
      newline ending one line; trailing text without a newline is a last
      line of its own. */
  function ReadLines(s: string): seq<string>
    decreases |s|
  {
    if |s| == 0 then []
    else
      var n := LineEnd(s);
      if n == |s| then [s] else [s[..n]] + ReadLines(s[n + 1..])
  }

  /** A line without a newline, followed by one, ends right there. */
  lemma LineEndOf(line: string, rest: string)
    requires '\n' !in line
    ensures LineEnd(line + "\n" + rest) == |line|
  {
    var s := line + "\n" + rest;
    assert forall j :: 0 <= j < |line| ==> s[j] == line[j];
    assert s[|line|] == '\n';
  }

  /** Reading the file back gives exactly the lines written, in order,
      when no line holds a newline of its own. */
  lemma {:induction false} FileTextReadsBack(lines: seq<string>)
    requires forall i :: 0 <= i < |lines| ==> '\n' !in lines[i]
    ensures ReadLines(FileText(lines)) == lines
    decreases |lines|
  {
    if |lines| > 0 {
      var line, rest := lines[0], FileText(lines[1..]);
      var s := line + "\n" + rest;
      assert FileText(lines) == s;
      LineEndOf(line, rest);
      assert s[..|line|] == line && s[|line| + 1..] == rest;
      FileTextReadsBack(lines[1..]);
    }
  }

  lemma {:induction false} NewlinesConcat(a: string, b: string)
    ensures Csv.Newlines(a + b) == Csv.Newlines(a) + Csv.Newlines(b)
    decreases |a|
  {
    if |a| > 0 {
      NewlinesConcat(a[1..], b);
      assert (a + b)[1..] == a[1..] + b;
    } else {
      assert a + b == b;
    }
  }

  /** With a separator free of newlines, the written file has exactly one
      line per matrix row: the escaping keeps newlines inside names and
      numbers from breaking a row. */
  lemma {:induction false} FileLines(lines: seq<string>)
    requires forall i :: 0 <= i < |lines| ==> '\n' !in lines[i]
    ensures Csv.Newlines(FileText(lines)) == |lines|
    decreases |lines|
  {
    if |lines| > 0 {
      FileLines(lines[1..]);
      NewlinesConcat(lines[0] + "\n", FileText(lines[1..]));
      NewlinesConcat(lines[0], "\n");
      NoNewlineCount(lines[0]);
    }
  }

  lemma {:induction false} NoNewlineCount(s: string)
    requires '\n' !in s
    ensures Csv.Newlines(s) == 0
    decreases |s|
  {
    if |s| > 0 {
      NoNewlineCount(s[1..]);
    }
  }

  /** `createMap(typeData)` from the rows of the followers or followings
      file and the configured profile list: map the rows, pair the
      profiles, lay out the matrix. */
  method CreateMap(rows: seq<Data.Row>, profiles: seq<string>, less: (string, string) -> bool, sep: string, show: Inputs -> string)
    returns (text: string)
    ensures text == FileText(SaveLines(CalculateDistances(Data.MapUsers(rows, None), profiles, less), profiles, less, sep, show))
    ensures '\n' !in sep ==> Csv.Newlines(text) == |profiles| + 1
  {
    var m := Data.MapUsers(rows, None);
    var d := CalculateDistances(m, profiles, less);
    var lines := Save(d, profiles, less, sep, show);
    text := FileText(lines);
    if '\n' !in sep {
      FileLines(lines);
    }
  }
}

=== FILE: token_pool.dfy ===
/** `TokenPool`: the ordered list of applications the crawler rotates
    through. A pool is a plain sequence of apps; its order matters, because
    `getApp` takes the first free app and `getSoonestAvailableApp` reorders
    the pool in place. */
module TokenPool {
  import opened Types
  import opened Credentials

  /** `IAppTokenInfo`: one application id with its tokens. */
  datatype AppTokenInfo = AppTokenInfo(id: string, tokens: seq<string>)

  /** The error the constructor throws. */
  datatype PoolError = NoApplicationOrToken

  /** `new TokenPool(apps)`: refuses an empty list, or a first application
      without tokens (later applications are not checked); otherwise one
      unlocked app per entry, in input order. `getAppCount` is the length of
      the resulting sequence. */
  function NewPool(infos: seq<AppTokenInfo>): (r: Result<seq<App>, PoolError>)
    ensures r.Failure? <==> |infos| == 0 || |infos[0].tokens| == 0
    ensures r.Success? ==> |r.value| == |infos|
    ensures r.Success? ==> forall i :: 0 <= i < |infos| ==>
      r.value[i].id == infos[i].id && r.value[i].tokens == infos[i].tokens
    ensures r.Success? ==> forall i, k: Kind :: 0 <= i < |infos| ==> ResetTime(r.value[i], k) == None
  {
    if |infos| == 0 || |infos[0].tokens| == 0 then Failure(NoApplicationOrToken)
    else Success(seq(|infos|, i requires 0 <= i < |infos| => NewApp(infos[i].id, infos[i].tokens)))
  }

  /** Only the first application's token list is inspected: a pool whose
      second application has no token is accepted. */
  lemma OnlyFirstTokensChecked()
    ensures NewPool([AppTokenInfo("a", ["t"]), AppTokenInfo("b", [])]).Success?
  {
  }

  /** The index of the first app at or after `i` that is free for `k`. */
  function FindFree(pool: seq<App>, k: Kind, now: int, i: nat): (r: Option<nat>)
    requires i <= |pool|
    ensures r.Some? ==> i <= r.value < |pool| && !IsLocked(pool[r.value], k, now)
    ensures r.Some? ==> forall j :: i <= j < r.value ==> IsLocked(pool[j], k, now)
    ensures r.None? ==> forall j :: i <= j < |pool| ==> IsLocked(pool[j], k, now)
    decreases |pool| - i
  {
    if i == |pool| then None
    else if !IsLocked(pool[i], k, now) then Some(i)
    else FindFree(pool, k, now, i + 1)
  }

  /** `getApp(dataType)`: the first app in pool order that is not locked for
      `k` at `now`, or nothing when every app is locked. The app returned
      never has a reset instant for `k` later than `now`. */
  function GetApp(pool: seq<App>, k: Kind, now: int): (r: Option<nat>)
    ensures r.Some? ==> r.value < |pool| && !IsLocked(pool[r.value], k, now)
    ensures r.Some? ==> forall j :: 0 <= j < r.value ==> IsLocked(pool[j], k, now)
    ensures r.None? <==> forall j :: 0 <= j < |pool| ==> IsLocked(pool[j], k, now)
    ensures r.Some? ==> ResetTime(pool[r.value], k).None? || ResetTime(pool[r.value], k).value <= now
  {
    FindFree(pool, k, now, 0)
  }

  /** Locks the app at position `i` (the app object `lock` is called on). */
  function LockAt(pool: seq<App>, i: nat, k: Kind, until: int): (r: seq<App>)
    requires i < |pool|
    ensures |r| == |pool|
    ensures ResetTime(r[i], k) == Some(until)
    ensures forall j :: 0 <= j < |pool| && j != i ==> r[j] == pool[j]
    ensures forall k': Kind :: k' != k ==> ResetTime(r[i], k') == ResetTime(pool[i], k')
    ensures r[i].id == pool[i].id && r[i].tokens == pool[i].tokens
  {
    pool[i := Lock(pool[i], k, until)]
  }

  /** Pools that agree, app by app, on which apps are locked for `k`. */
  ghost predicate SameLocks(p: seq<App>, q: seq<App>, k: Kind, now: int) {
    |p| == |q| && forall j :: 0 <= j < |p| ==> IsLocked(p[j], k, now) == IsLocked(q[j], k, now)
  }

  lemma {:induction false} FindFreeSameLocks(p: seq<App>, q: seq<App>, k: Kind, now: int, i: nat)
    requires SameLocks(p, q, k, now) && i <= |p|
    ensures FindFree(p, k, now, i) == FindFree(q, k, now, i)
    decreases |p| - i
  {
    if i < |p| && IsLocked(p[i], k, now) {
      FindFreeSameLocks(p, q, k, now, i + 1);
    }
  }

  /** A lock recorded for one kind never changes which app `getApp` hands
      out for another kind. */
  lemma LockDoesNotAffectOtherKind(pool: seq<App>, i: nat, k: Kind, until: int, k': Kind, now: int)
    requires i < |pool| && k != k'
    ensures GetApp(LockAt(pool, i, k, until), k', now) == GetApp(pool, k', now)
  {
    var q := LockAt(pool, i, k, until);
    forall j | 0 <= j < |pool|
      ensures IsLocked(q[j], k', now) == IsLocked(pool[j], k', now)
    {
      if j == i {
        LockOtherKind(pool[i], k, k', until, now);
      }
    }
    FindFreeSameLocks(q, pool, k', now, 0);
  }

  /** The comparator of `getSoonestAvailableApp`: the difference of the
      two reset instants. A missing reset makes the difference `NaN`,
      which the engine's sort reads as "equal". */
  function Compare(a: App, b: App, k: Kind): int {
    match (ResetTime(a, k), ResetTime(b, k))
    case (Some(x), Some(y)) => x - y
    case _ => 0
  }

  /** Inserts `x` before the first element it does not sort after. */
  function Insert(x: App, s: seq<App>, k: Kind): seq<App> {
    if |s| == 0 || Compare(x, s[0], k) <= 0 then [x] + s
    else [s[0]] + Insert(x, s[1..], k)
  }

  /** The in-place sort of `getSoonestAvailableApp`, as a stable insertion
      sort over `Compare`. */
  function SortByReset(s: seq<App>, k: Kind): seq<App> {
    if |s| == 0 then [] else Insert(s[0], SortByReset(s[1..], k), k)
  }

  /** Every app of `s` has a reset instant for `k`. */
  predicate AllHaveReset(s: seq<App>, k: Kind) {
    forall i :: 0 <= i < |s| ==> ResetTime(s[i], k).Some?
  }

  /** Apps in ascending order of their reset instant for `k`. */
  ghost predicate SortedByReset(s: seq<App>, k: Kind)
    requires AllHaveReset(s, k)
  {
    forall i, j :: 0 <= i < j < |s| ==> ResetTime(s[i], k).value <= ResetTime(s[j], k).value
  }

  lemma {:induction false} InsertPermutes(x: App, s: seq<App>, k: Kind)
    ensures multiset(Insert(x, s, k)) == multiset(s) + multiset{x}
    ensures |Insert(x, s, k)| == |s| + 1
    decreases |s|
  {
    if |s| == 0 || Compare(x, s[0], k) <= 0 {
    } else {
      InsertPermutes(x, s[1..], k);
      assert s == [s[0]] + s[1..];
    }
  }

  lemma {:induction false} SortPermutes(s: seq<App>, k: Kind)
    ensures multiset(SortByReset(s, k)) == multiset(s)
    ensures |SortByReset(s, k)| == |s|
    decreases |s|
  {
    if |s| > 0 {
      SortPermutes(s[1..], k);
      InsertPermutes(s[0], SortByReset(s[1..], k), k);
      assert s == [s[0]] + s[1..];
    }
  }

  lemma {:induction false} InsertMembers(x: App, s: seq<App>, k: Kind)
    ensures forall y :: y in Insert(x, s, k) <==> y == x || y in s
    decreases |s|
  {
    if |s| > 0 && Compare(x, s[0], k) > 0 {
      InsertMembers(x, s[1..], k);
      assert s == [s[0]] + s[1..];
    }
  }

  lemma {:induction false} InsertSorted(x: App, s: seq<App>, k: Kind)
    requires ResetTime(x, k).Some? && AllHaveReset(s, k) && SortedByReset(s, k)
    ensures AllHaveReset(Insert(x, s, k), k)
    ensures SortedByReset(Insert(x, s, k), k)
    decreases |s|
  {
    InsertMembers(x, s, k);
    var r := Insert(x, s, k);
    forall i | 0 <= i < |r|
      ensures ResetTime(r[i], k).Some?
    {
      assert r[i] in r;
    }
    if |s| > 0 && Compare(x, s[0], k) > 0 {
      InsertSorted(x, s[1..], k);
      var t := Insert(x, s[1..], k);
      InsertMembers(x, s[1..], k);
      forall j | 0 <= j < |t|
        ensures ResetTime(s[0], k).value <= ResetTime(t[j], k).value
      {
        assert t[j] in t;
        if t[j] != x {
          var m :| 0 <= m < |s[1..]| && s[1..][m] == t[j];
          assert s[1 + m] == t[j];
        }
      }
      assert r == [s[0]] + t;
    }
  }

  lemma {:induction false} SortSorted(s: seq<App>, k: Kind)
    requires AllHaveReset(s, k)
    ensures AllHaveReset(SortByReset(s, k), k)
    ensures SortedByReset(SortByReset(s, k), k)
    decreases |s|
  {
    if |s| > 0 {
      assert AllHaveReset(s[1..], k);
      SortSorted(s[1..], k);
      InsertSorted(s[0], SortByReset(s[1..], k), k);
    }
  }

  /** `getSoonestAvailableApp(dataType)`: reorders the pool (the returned
      sequence is a permutation of the input) and hands out its new first
      app. When every app has a reset instant for `k`, the pool comes back
      sorted by it and the app handed out resets no later than any other. */
  function SoonestAvailable(pool: seq<App>, k: Kind): (r: seq<App>)
    requires |pool| > 0
    ensures |r| == |pool| && multiset(r) == multiset(pool)
    ensures AllHaveReset(pool, k) ==> AllHaveReset(r, k) && SortedByReset(r, k)
    ensures AllHaveReset(pool, k) ==>
      forall j :: 0 <= j < |pool| ==> ResetTime(r[0], k).value <= ResetTime(pool[j], k).value
  {
    SortPermutes(pool, k);
    var r := SortByReset(pool, k);
    if AllHaveReset(pool, k) then
      SortSorted(pool, k);
      MinFirst(pool, r, k);
      r
    else
      r
  }

  lemma MinFirst(pool: seq<App>, r: seq<App>, k: Kind)
    requires |r| > 0 && multiset(r) == multiset(pool) && AllHaveReset(pool, k)
    requires AllHaveReset(r, k) && SortedByReset(r, k)
    ensures forall j :: 0 <= j < |pool| ==> ResetTime(r[0], k).value <= ResetTime(pool[j], k).value
  {
    forall j | 0 <= j < |pool|
      ensures ResetTime(r[0], k).value <= ResetTime(pool[j], k).value
    {
      assert pool[j] in multiset(pool);
      assert pool[j] in multiset(r);
      var m :| 0 <= m < |r| && r[m] == pool[j];
    }
  }

  /** The number of apps locked for `k` at `now`. */
  function LockedCount(pool: seq<App>, k: Kind, now: int): (n: nat)
    ensures n <= |pool|
  {
    if |pool| == 0 then 0
    else (if IsLocked(pool[0], k, now) then 1 else 0) + LockedCount(pool[1..], k, now)
  }

  /** When `getApp` finds nothing, every app counts as locked. */
  lemma {:induction false} AllLockedCount(pool: seq<App>, k: Kind, now: int)
    requires forall j :: 0 <= j < |pool| ==> IsLocked(pool[j], k, now)
    ensures LockedCount(pool, k, now) == |pool|
    decreases |pool|
  {
    if |pool| > 0 {
      AllLockedCount(pool[1..], k, now);
    }
  }
}

=== FILE: types.dfy ===
/** Vocabulary shared by every module of the crawler model: optional values,
    results carrying an error, and the three data kinds a worker crawls. */
module Types {

  /** A JavaScript value that may be `undefined` or `null`. */
  datatype Option<T> = None | Some(value: T) {

    /** The wrapped value, or `default` when there is none (the `x || d` idiom). */
    function GetOr(default: T): T {
      match this
      case Some(v) => v
      case None => default
    }
  }

  /** The outcome of an operation that may throw. */
  datatype Result<T, E> = Success(value: T) | Failure(error: E)

  /** `EData`: the resource kinds the crawler downloads, one queue each. */
  datatype Kind = Tweets | Followers | Followings

  /** JavaScript truthiness of a string: only the empty string is falsy. */
  predicate Truthy(s: string) {
    s != ""
  }

  /** JavaScript truthiness of an optional string (`undefined` is falsy). */
  predicate TruthyOpt(s: Option<string>) {
    s.Some? && Truthy(s.value)
  }
}

=== FILE: workers.dfy ===
/** The workers: `BaseWorker.perform`, which acquires an app for the
    worker's kind and locks it when the job reports a rate-limit error, and
    the single-page transition `_perform` of the tweets and followers
    workers. The remote API is an input: the page a fetch returns, or the
    error it throws. */
module Workers {
  import opened Types
  import opened Credentials
  import opened TokenPool
  import opened ResumeStore
  import opened Downloader
  import Csv

  /** `LIMIT_TWEETS` and `LIMIT_USERS`. */
  const LimitTweets: int := 100
  const LimitUsers: int := 200

  /** An error thrown by a job: an API error with its HTTP status code and,
      when the response carried one, the rate-limit reset in epoch seconds;
      or any other error (no `code`). */
  datatype JobError = ApiError(code: int, rateLimitReset: Option<int>) | OtherError

  /** What `perform` throws: the job's own error, or the `TypeError` raised
      when a 429 error carries no `rateLimit` to read the reset from. */
  datatype Thrown = Rethrown(error: JobError) | MissingRateLimit

  datatype Performed = Performed(pool: seq<App>, app: nat, now: int, thrown: Option<Thrown>)

  /** `BaseWorker.perform()`: wait for an app free for the worker's kind,
      run the job (its outcome is `outcome`: `None` for success), and on a
      429 error lock that app for the worker's kind until the reset
      (seconds, scaled to milliseconds) before rethrowing. Success returns
      normally; every error is rethrown; any other error leaves every lock
      as it was. */
  function Perform(pool: seq<App>, k: Kind, now: int, outcome: Option<JobError>): (r: Performed)
    requires |pool| > 0
    ensures var acq := AwaitApp(pool, k, now);
      r.app == acq.app && r.now == acq.now && r.app < |r.pool| && |r.pool| == |pool| &&
      !IsLocked(acq.pool[r.app], k, r.now)
    ensures outcome.None? ==> r.thrown.None? && r.pool == AwaitApp(pool, k, now).pool
    ensures outcome.Some? ==> r.thrown.Some?
    ensures outcome.Some? && !(outcome.value.ApiError? && outcome.value.code == 429) ==>
      r.thrown == Some(Rethrown(outcome.value)) && r.pool == AwaitApp(pool, k, now).pool
    ensures outcome.Some? && outcome.value.ApiError? && outcome.value.code == 429 ==>
      match outcome.value.rateLimitReset
      case Some(s) =>
        r.thrown == Some(Rethrown(outcome.value)) &&
        ResetTime(r.pool[r.app], k) == Some(s * 1000) &&
        r.pool[r.app].id == AwaitApp(pool, k, now).pool[r.app].id &&
        r.pool[r.app].tokens == AwaitApp(pool, k, now).pool[r.app].tokens &&
        (forall k': Kind :: k' != k ==> ResetTime(r.pool[r.app], k') == ResetTime(AwaitApp(pool, k, now).pool[r.app], k')) &&
        (forall j :: 0 <= j < |r.pool| && j != r.app ==> r.pool[j] == AwaitApp(pool, k, now).pool[j])
      case None =>
        r.thrown == Some(MissingRateLimit) && r.pool == AwaitApp(pool, k, now).pool
  {
    var acq := AwaitApp(pool, k, now);
    match outcome
    case None => Performed(acq.pool, acq.app, acq.now, None)
    case Some(e) =>
      if e.ApiError? && e.code == 429 then
        match e.rateLimitReset
        case Some(s) => Performed(LockAt(acq.pool, acq.app, k, s * 1000), acq.app, acq.now, Some(Rethrown(e)))
        case None => Performed(acq.pool, acq.app, acq.now, Some(MissingRateLimit))
      else Performed(acq.pool, acq.app, acq.now, Some(Rethrown(e)))
  }

  /** After a 429 whose reset lies in the future, `getApp` no longer hands
      out that app for the worker's kind, while every other kind still sees
      the pool exactly as before the lock. */
  lemma RateLimitLocksOnlyItsKind(pool: seq<App>, k: Kind, now: int, s: int, k': Kind, later: int)
    requires |pool| > 0 && k != k'
    requires later < s * 1000
    ensures var r := Perform(pool, k, now, Some(ApiError(429, Some(s))));
      IsLocked(r.pool[r.app], k, later) &&
      GetApp(r.pool, k', later) == GetApp(AwaitApp(pool, k, now).pool, k', later)
  {
    var acq := AwaitApp(pool, k, now);
    LockDoesNotAffectOtherKind(acq.pool, acq.app, k, s * 1000, k', later);
  }

  /** The request a worker sends: user id, page size and the stored cursor
      as `pagination_token`. */
  datatype Request = Request(userId: string, maxResults: int, paginationToken: Cursor)

  /** A fetched page: its items, `meta.next_token`, `meta.result_count` and
      the paginator's `done`. */
  datatype Page<T> = Page(items: seq<T>, nextToken: Option<string>, resultCount: int, done: bool)

  datatype Tweet = Tweet(id: string, text: string, createdAt: string)
  datatype User = User(id: string, username: string)

  /** One transition of `_perform`: the request sent (none when skipped),
      the CSV rows written, the record afterwards, the cache afterwards,
      whether the job is enqueued again, and the error the fetch threw. */
  datatype Step = Step(request: Option<Request>, rows: seq<seq<string>>, record: UserData, cache: Cache, requeue: bool, error: Option<JobError>)

  /** The step that does nothing at all. */
  function Skip(u: UserData, cache: Cache): Step {
    Step(None, [], u, cache, false, None)
  }

  /** Whether `_perform` returns before fetching: the cursor for the
      worker's kind is already an explicit `null` (checked first), or the
      record is flagged protected. */
  predicate Skips(u: UserData, k: Kind) {
    CursorOf(u, k) == Null || u.protected == Some(true)
  }

  /** `_processBulk`: one row per item, built by `row`. */
  function Rows<T>(userId: string, username: string, items: seq<T>, row: (string, string, T) -> seq<string>): (r: seq<seq<string>>)
    ensures |r| == |items|
    ensures forall i :: 0 <= i < |items| ==> r[i] == row(userId, username, items[i])
  {
    if |items| == 0 then [] else [row(userId, username, items[0])] + Rows(userId, username, items[1..], row)
  }

  /** The `_perform` shared by both workers, for kind `k` and page size
      `limit`: `username` is the job's username, `u` the record
      `getUserData` returned for it. */
  function PageStep<T>(k: Kind, limit: int, username: string, u: UserData, cache: Cache,
                       fetched: Result<Page<T>, JobError>, row: (string, string, T) -> seq<string>): (r: Step)
    ensures Skips(u, k) ==> r == Skip(u, cache)
    ensures !Skips(u, k) ==> r.request == Some(Request(u.id, limit, CursorOf(u, k)))
    ensures !Skips(u, k) && fetched.Failure? ==>
      r.rows == [] && r.record == u && r.cache == cache && !r.requeue && r.error == Some(fetched.error)
    ensures !Skips(u, k) && fetched.Success? ==>
      r.error.None? &&
      r.rows == Rows(u.id, username, fetched.value.items, row) &&
      (r.record, r.cache) == HandlePaginationToken(cache, u, k, fetched.value.nextToken, fetched.value.resultCount) &&
      r.requeue == !fetched.value.done
  {
    if CursorOf(u, k) == Null then Skip(u, cache)
    else if u.protected == Some(true) then Skip(u, cache)
    else
      var request := Request(u.id, limit, CursorOf(u, k));
      match fetched
      case Failure(e) => Step(Some(request), [], u, cache, false, Some(e))
      case Success(page) =>
        var rows := Rows(u.id, username, page.items, row);
        var (next, cache') := HandlePaginationToken(cache, u, k, page.nextToken, page.resultCount);
        Step(Some(request), rows, next, cache', !page.done, None)
  }

  /** The tweets CSV row: user id, username, tweet id, text, creation time. */
  function TweetRow(userId: string, username: string, t: Tweet): seq<string> {
    [userId, username, t.id, t.text, t.createdAt]
  }

  /** The followers CSV row: user id, username, follower id, follower username. */
  function FollowerRow(userId: string, username: string, f: User): seq<string> {
    [userId, username, f.id, f.username]
  }

  /** A field `writeRow` can write and read back unchanged. */
  predicate Plain(s: string) {
    '"' !in s && '\\' !in s
  }

  /** A step sends a request exactly when the skip rule does not apply. */
  lemma SkipsExactlyWithoutRequest<T>(k: Kind, limit: int, username: string, u: UserData, cache: Cache,
                                      fetched: Result<Page<T>, JobError>, row: (string, string, T) -> seq<string>)
    ensures PageStep(k, limit, username, u, cache, fetched, row).request.None? <==> Skips(u, k)
  {
  }

  /** A record fresh from the remote lookup has no cursor and no
      `protected` flag, so the first job for a new profile always fetches. */
  lemma FreshRecordNeverSkips(username: string, profile: Profile, k: Kind)
    ensures !Skips(FreshRecord(username, profile), k)
  {
  }

  /** The line `writeRow` writes for a tweet reads back, with the same
      separator, as user id, username, tweet id, text and creation time. */
  lemma TweetRowReadsBack(sep: string, userId: string, username: string, t: Tweet)
    requires Plain(userId) && Plain(username) && Plain(t.id) && Plain(t.text) && Plain(t.createdAt)
    ensures Csv.DecodeRow(Csv.ToCSVRow(sep, TweetRow(userId, username, t)), sep) == Some([userId, username, t.id, t.text, t.createdAt])
  {
    Csv.DecodeEncodedRow(sep, TweetRow(userId, username, t));
  }

  /** The line `writeRow` writes for a follower reads back, with the same
      separator, as user id, username, follower id and follower username. */
  lemma FollowerRowReadsBack(sep: string, userId: string, username: string, f: User)
    requires Plain(userId) && Plain(username) && Plain(f.id) && Plain(f.username)
    ensures Csv.DecodeRow(Csv.ToCSVRow(sep, FollowerRow(userId, username, f)), sep) == Some([userId, username, f.id, f.username])
  {
    Csv.DecodeEncodedRow(sep, FollowerRow(userId, username, f));
  }

  /** `TweetsWorker._perform`: skips on an exhausted or protected record;
      otherwise asks for up to 100 tweets from the stored cursor, writes
      one five-field row per tweet, records the next cursor and the count,
      and enqueues itself again unless the timeline is done. */
  function TweetsPerform(username: string, u: UserData, cache: Cache, fetched: Result<Page<Tweet>, JobError>): (r: Step)
    ensures Skips(u, Tweets) ==> r == Skip(u, cache)
    ensures !Skips(u, Tweets) ==> r.request == Some(Request(u.id, 100, CursorOf(u, Tweets)))
    ensures !Skips(u, Tweets) && fetched.Success? ==>
      var page := fetched.value;
      |r.rows| == |page.items| &&
      (forall i :: 0 <= i < |page.items| ==>
        r.rows[i] == [u.id, username, page.items[i].id, page.items[i].text, page.items[i].createdAt]) &&
      r.record == NextRecord(u, Tweets, page.nextToken, page.resultCount) &&
      (r.record, r.cache) == HandlePaginationToken(cache, u, Tweets, page.nextToken, page.resultCount) &&
      u.username in r.cache && r.cache[u.username] == Merge(Cached(cache, u.username), AsPatch(r.record)) &&
      (forall v :: v in cache && v != u.username ==> v in r.cache && r.cache[v] == cache[v]) &&
      r.error.None? && (r.requeue <==> !page.done)
    ensures !Skips(u, Tweets) && fetched.Failure? ==>
      r.rows == [] && r.record == u && r.cache == cache && !r.requeue && r.error == Some(fetched.error)
  {
    PageStep(Tweets, LimitTweets, username, u, cache, fetched, TweetRow)
  }

  /** `FollowersWorker._perform`: skips on an exhausted or protected record;
      otherwise asks for up to 200 followers from the stored cursor, writes
      one four-field row per follower, records the next cursor and the
      count, and enqueues itself again unless the paginator is done. */
  function FollowersPerform(username: string, u: UserData, cache: Cache, fetched: Result<Page<User>, JobError>): (r: Step)
    ensures Skips(u, Followers) ==> r == Skip(u, cache)
    ensures !Skips(u, Followers) ==> r.request == Some(Request(u.id, 200, CursorOf(u, Followers)))
    ensures !Skips(u, Followers) && fetched.Success? ==>
      var page := fetched.value;
      |r.rows| == |page.items| &&
      (forall i :: 0 <= i < |page.items| ==>
        r.rows[i] == [u.id, username, page.items[i].id, page.items[i].username]) &&
      r.record == NextRecord(u, Followers, page.nextToken, page.resultCount) &&
      (r.record, r.cache) == HandlePaginationToken(cache, u, Followers, page.nextToken, page.resultCount) &&
      u.username in r.cache && r.cache[u.username] == Merge(Cached(cache, u.username), AsPatch(r.record)) &&
      (forall v :: v in cache && v != u.username ==> v in r.cache && r.cache[v] == cache[v]) &&
      r.error.None? && (r.requeue <==> !page.done)
    ensures !Skips(u, Followers) && fetched.Failure? ==>
      r.rows == [] && r.record == u && r.cache == cache && !r.requeue && r.error == Some(fetched.error)
  {
    PageStep(Followers, LimitUsers, username, u, cache, fetched, FollowerRow)
  }

  /** A page of one kind never disturbs another kind: when the cache holds
      the record the job read (or nothing for that user), the cached record
      afterwards keeps the cursor and count of every other kind. */
  lemma PageKeepsOtherKinds<T>(k: Kind, limit: int, username: string, u: UserData, cache: Cache,
                               page: Page<T>, row: (string, string, T) -> seq<string>, k': Kind)
    requires u.username in cache ==> cache[u.username] == u
    requires !Skips(u, k) && k' != k
    ensures var r := PageStep(k, limit, username, u, cache, Success(page), row);
      u.username in r.cache &&
      CursorOf(r.cache[u.username], k') == CursorOf(u, k') &&
      DoneOf(r.cache[u.username], k') == DoneOf(u, k')
  {
    PageLeavesOtherKinds(cache, u, k, page.nextToken, page.resultCount);
  }

  /** Once a page comes back without a next token, the timeline of that
      kind is finished for good: the next job for the same user and kind,
      whatever the API would return, fetches nothing, writes nothing,
      changes nothing and is not enqueued again. This holds both for the
      record the step returns and for the entry it leaves in the cache,
      which is what the next job's `getUserData` reads. */
  lemma ExhaustedStaysDone<T>(k: Kind, limit: int, username: string, u: UserData, cache: Cache,
                              page: Page<T>, again: Result<Page<T>, JobError>, row: (string, string, T) -> seq<string>)
    requires !TruthyOpt(page.nextToken)
    ensures var r := PageStep(k, limit, username, u, cache, Success(page), row);
      var r2 := PageStep(k, limit, username, r.record, r.cache, again, row);
      r2 == Skip(r.record, r.cache) && r2.request.None? && r2.rows == [] && !r2.requeue
    ensures var r := PageStep(k, limit, username, u, cache, Success(page), row);
      !Skips(u, k) ==>
        u.username in r.cache &&
        var c := r.cache[u.username];
        PageStep(k, limit, username, c, r.cache, again, row) == Skip(c, r.cache)
  {
    var r := PageStep(k, limit, username, u, cache, Success(page), row);
    if !Skips(u, k) {
      assert CursorOf(r.record, k) == Null;
    }
  }

  /** Two follower pages for a user not yet crawled: 200 followers with
      cursor "c2", then 50 with no cursor. Afterwards the stored cursor is
      an explicit `null`, 250 followers are counted, 250 rows are written,
      and the last job is not enqueued again if the paginator says so. */
  lemma FollowersTwoPages(username: string, u: UserData, cache: Cache, first: seq<User>, second: seq<User>)
    requires CursorOf(u, Followers) == Absent && DoneOf(u, Followers) == 0 && u.protected != Some(true)
    requires |first| == 200 && |second| == 50
    ensures var r1 := FollowersPerform(username, u, cache, Success(Page(first, Some("c2"), 200, false)));
      var r2 := FollowersPerform(username, r1.record, r1.cache, Success(Page(second, None, 50, true)));
      CursorOf(r1.record, Followers) == Next("c2") && DoneOf(r1.record, Followers) == 200 && r1.requeue &&
      CursorOf(r2.record, Followers) == Null && DoneOf(r2.record, Followers) == 250 &&
      CursorOf(r2.cache[u.username], Followers) == Null && DoneOf(r2.cache[u.username], Followers) == 250 &&
      |r1.rows| + |r2.rows| == 250 && !r2.requeue
  {
    var r1 := FollowersPerform(username, u, cache, Success(Page(first, Some("c2"), 200, false)));
    assert r1.record.username == u.username;
  }
}
